=== FILE: README.md ===
# OSF storage gateway handlers and helpers: a Dafny model

This project models the request-preparation and error-mapping core of the
OSF storage gateway (waterbutler), plus three small pure pieces of the OSF
web application. All of it is written as immutable datatypes and pure
functions, with two methods for the chart munger's loops:

- **Request handler base** (`handler_base.dfy`). Query arguments are
  collapsed by `list_or_value`. The `?method=` override and the `set_status`
  reason table (461 → "Unavailable For Legal Reasons") are modelled, and so
  are `write_error` and the CORS preflight `options` reply.
- **Single-provider handler** (`provider_handler.dfy`). `prepare` collapses
  the arguments and maps the verb to an action. It then resolves identity and
  builds the provider named by the `provider` query argument. `_send_hook`
  builds the audit payload, signs it and addresses it to the callback URL,
  with retry budget 5 and backoff 5.
- **Cross-provider handler** (`cross_provider_handler.dfy`). The `json` body
  property is memoised. `make_provider` resolves identity and keeps the
  callback URL on the handler. `prepare` builds the source provider, then the
  destination provider. Only after both does it complete a destination ending
  in `/` with the source path's final segment.
- **Chart mungers** (`statistics.dfy`). The hour-of-day munger turns a sparse
  Keen dataset into exactly 24 hour rows, "0" to "23". The popular-pages
  munger strips `OSF | ` and the project title, with `Home` as fallback.
- **JSON-API pagination** (`pagination.dfy`). URLs are a location plus a map
  of query parameters, and a page is (number, number of pages, count, size).
  Each of first/last/prev/next is present exactly when the page's position
  allows it, and each points at the page it names. Page 1 drops the `page`
  parameter. The embedded variant always serves page 1.
- **Taxonomy loading** (`taxonomies.dfy`). A fold over the `_`-separated
  subject paths upserts subjects into a store keyed by (text, type).

Shared pieces: `wrappers.dfy` (Option, Result), `decimal.dfy` (decimal text
of numbers and its parse, proved to round-trip), `strings.dfy` (prefix,
suffix, ASCII upper-casing, split/join proved to round-trip, the
`os.path.split` tail) and `json.dfy` (JSON values with Python truthiness).

Collaborators whose code is not part of this model are fields of the `Env`
record, as uninterpreted total functions:
- `get_identity`;
- `utils.make_provider`;
- the HMAC signer;
- UTF-8 decoding and `json.loads`.

Django's `reverse` and the base paginator are function parameters. Python
exceptions are the `Exception` datatype, carried in `Result` errors.

Behaviour of the code worth noting:
- A query argument with no values is kept, mapped to None. It is not omitted.
- A required JSON body that cannot be parsed raises a bare `Exception`. It
  does not raise a structured error.
- A body that is not valid UTF-8 takes the same branch as invalid JSON,
  because `UnicodeDecodeError` is a `ValueError`.
- The handler keeps only the callback URL of the last identity resolution.
  That is the destination's.

## Model

| member | source | states |
|---|---|---|
| HandlerBase.DecodeAll | waterbutler/server/handlers/core.py:43 | every item decodes iff the result exists; then the result holds each decoded item, in order, with the same count |
| HandlerBase.ListOrValue | waterbutler/server/handlers/core.py:36-43 | no values give None; one value gives that value decoded as a scalar; more values give a list of the same length holding each decoded value in order; an undecodable value raises UnicodeDecodeError |
| HandlerBase.ListOrValueKeepsValues | waterbutler/server/handlers/core.py:36-43 | collapsing loses only the scalar-versus-list shape: the strings of the collapsed value are exactly the decoded values |
| HandlerBase.CollapseArguments | waterbutler/server/handlers/core.py:103-106 | every query key is kept, including one with no values (mapped to None), and each value is what `list_or_value` gives for it |
| HandlerBase.OverrideMethod | waterbutler/server/handlers/core.py:67-70 | an absent or empty `method` argument keeps the verb; a non-empty one replaces it with its upper-cased form, with no allow-list; a value that is not valid UTF-8 raises `HTTPError(400)` |
| Strings.ToUpper | waterbutler/server/handlers/core.py:70 | upper-casing keeps the length and maps each character to its upper case |
| HandlerBase.SetStatus | waterbutler/server/handlers/core.py:72-73 | a non-empty explicit reason wins; otherwise the reason table's entry when the code has one; otherwise no reason |
| HandlerBase.LegalReasonsPhrase | waterbutler/server/handlers/core.py:31-33 | 461 gets "Unavailable For Legal Reasons" and every other code without an explicit reason gets none |
| HandlerBase.WriteError | waterbutler/server/handlers/core.py:79-92 | a provider error sets its own code and answers its truthy data, else `{code, message}` of its own; any other error answers `{code: status_code, message: reason}` and keeps the status |
| HandlerBase.EnvelopeCodeMatchesStatus | waterbutler/server/handlers/core.py:79-92 | whenever the body is an envelope, its `code` equals the status the response goes out with |
| HandlerBase.Options | waterbutler/server/handlers/core.py:94-96 | the preflight answers 204 with `Access-Control-Allow-Methods: PUT, POST, DELETE` |
| ProviderHandler.Prepare | waterbutler/server/handlers/core.py:102-119 | arguments are always collapsed and an undecodable one fails; every query key keeps its collapsed value except `action`, which a mapped verb overrides; a verb outside the table yields no payload and no provider; otherwise `action` is the mapped action and identity is resolved with all arguments: its error reaches the caller unchanged, a missing `provider` is a KeyError after it, and the request succeeds exactly when the factory builds the provider from the `provider` argument and the payload's auth, credentials and settings, whose error is returned otherwise |
| ProviderHandler.SkippedPrepareIgnoresCollaborators | waterbutler/server/handlers/core.py:107-110 | for a verb outside the table the outcome does not depend on identity resolution or the provider factory: neither is called |
| ProviderHandler.MethodOverrideSelectsAction | waterbutler/server/handlers/core.py:67-70 | `?method=delete` makes the whole request behave exactly as a DELETE request with the same query, whatever verb it used |
| ProviderHandler.Handle | waterbutler/server/handlers/core.py:67-110 | `initialize` then `prepare`: an undecodable `method` raises `HTTPError(400)`; otherwise the request is prepared exactly as `prepare` would prepare it under the overridden verb (its own verb when `method` is absent or empty), so the overridden verb selects the action and an unmapped one resolves no identity |
| ProviderHandler.HookPayload | waterbutler/server/handlers/core.py:123-129 | the audit payload has exactly the keys action, provider, metadata, auth and time, the time being now + 60 |
| ProviderHandler.SendHook | waterbutler/server/handlers/core.py:121-140 | the hook is a PUT to the payload's callback URL with a JSON body of exactly the signed message and its signature, under retries 5 and backoff 5; a missing provider argument is a KeyError and a missing payload an AttributeError; otherwise the hook is sent exactly when the signed message decodes as UTF-8, and fails with UnicodeDecodeError when it does not |
| ProviderHandler.HookFollowsPrepare | waterbutler/server/handlers/core.py:112-133 | after a successful prepare the hook goes to the callback URL identity returned, with the provider argument as collapsed from the query |
| CrossProviderHandler.ParseBody | waterbutler/server/handlers/core.py:177 | a body that is not UTF-8 parses to nothing; a decodable body parses to exactly what `json.loads` gives for its text, nothing when that raises ValueError |
| CrossProviderHandler.IdentityRequest | waterbutler/server/handlers/core.py:161-166 | identity is asked with exactly the descriptor's keys plus `action`, `action` being the handler's action and every other key keeping the descriptor's value |
| CrossProviderHandler.ReadJson | waterbutler/server/handlers/core.py:170-183 | a cached body is returned as is; otherwise the body is parsed and cached, an unparseable body is cached as None, or raises without caching when JSON is required; nothing but the cache changes |
| CrossProviderHandler.ReadJsonMemoised | waterbutler/server/handlers/core.py:170-183 | reading the property twice gives the same value and state as reading it once |
| CrossProviderHandler.Subscript | waterbutler/server/handlers/core.py:153 | `self.json[key]` succeeds exactly on an object body holding the key; a missing key is a KeyError, a None or non-object body a TypeError, and an unreadable required body raises the property's error |
| CrossProviderHandler.MakeProvider | waterbutler/server/handlers/core.py:159-168 | a descriptor Python cannot bind, or an unmapped verb, fails; otherwise identity is resolved with the descriptor plus the action and its error propagates; on success its callback URL replaces the handler's, and the call succeeds exactly when the factory builds the provider from the descriptor's provider and the payload's auth, credentials and settings (not the callback URL), whose error is returned otherwise |
| Strings.PathTail | waterbutler/server/handlers/core.py:157 | the tail of `os.path.split`: the longest suffix of the path holding no `/` |
| Strings.PathTailAfterSlash | waterbutler/server/handlers/core.py:157 | for a directory ending in `/` and a name without `/`, the tail of their concatenation is exactly the name |
| CrossProviderHandler.RewriteDestination | waterbutler/server/handlers/core.py:156-157 | a destination not ending in `/` is unchanged; one ending in `/` is extended by a text with no `/` |
| CrossProviderHandler.RewriteDestinationProperties | waterbutler/server/handlers/core.py:156-157 | a rewritten destination ends in the source's final segment, and rewriting twice equals rewriting once |
| CrossProviderHandler.RewriteDestinationExample | waterbutler/server/handlers/core.py:156-157 | `/a/b/` with source `/x/y/file.txt` becomes `/a/b/file.txt`; `/a/b/file.txt` stays |
| CrossProviderHandler.RewriteIntoBackupExample | waterbutler/server/handlers/core.py:156-157 | `/backup/` with source `/notes/report.pdf` becomes `/backup/report.pdf` |
| CrossProviderHandler.CompleteDestination | waterbutler/server/handlers/core.py:156-157 | succeeds exactly when the body holds a string destination path and, if that path ends in `/`, a string source path; the path is then written back completed with the source path's tail, and nothing else in the body changes |
| CrossProviderHandler.Prepare | waterbutler/server/handlers/core.py:146-157 | an unmapped verb changes nothing; otherwise prepare succeeds exactly when the body is shaped as a task with bindable descriptors, both identities are granted and both providers built (source first), and a directory destination has a string source path; then the providers come from the descriptors as parsed, the kept callback URL is the destination's, the cached body is the parsed one with only the destination path completed (and untouched when it does not end in `/`), and verb and JSON requirement are kept |
| CrossProviderHandler.SourceIdentityFailureAborts | waterbutler/server/handlers/core.py:153 | starting from an unread or read body, when the source's identity is refused prepare fails with exactly that error |
| CrossProviderHandler.DestinationIdentityFailureAborts | waterbutler/server/handlers/core.py:153-154 | starting from an unread or read body, when the source provider is built but the destination's identity is refused, prepare fails with exactly that error |
| CrossProviderHandler.CopyIntoDirectoryExample | waterbutler/server/handlers/core.py:153-157 | with working collaborators, a copy of `/notes/report.pdf` into `/backup/` is prepared, and its destination path becomes `/backup/report.pdf` |
| Statistics.KeyOf | website/static/js/statistics.js:149 | a string label is its own key; a number's key is its decimal form: digits with no leading zero that read back as the number, after a `-` when negative |
| Decimal.NatToString | website/static/js/statistics.js:154 | `'' + hour` is a non-empty run of digits, one digit exactly below 10, with no leading zero |
| Decimal.ParseNatToString | website/static/js/statistics.js:154 | the decimal form of a count reads back as that count |
| Statistics.FirstValue | website/static/js/statistics.js:147-149 | a value is found iff some row has the key, and it is the value of the lowest such row |
| Statistics.CollectFoundHours | website/static/js/statistics.js:146-151 | the downward overwriting loop over rows 1.. leaves, for every key, the value of the lowest data row with that key |
| Statistics.HourValue | website/static/js/statistics.js:155 | a truthy found value is kept; a falsy or missing one becomes 0 |
| Statistics.MungeHours | website/static/js/statistics.js:145-157 | row 0 is kept, every other original row is gone, and exactly 24 rows follow, hour h labelled with h and valued with the lowest matching row's value or 0 |
| Statistics.HourLabelsAscending | website/static/js/statistics.js:153-156 | the label of hour h reads back as h, so the labels are "0".."23", distinct and ascending |
| Statistics.FirstValueSkipsOtherKeys | website/static/js/statistics.js:147-156 | removing a row with another key does not change what is found, so labels outside 0..23 never reach the chart |
| Statistics.DuplicateLabelExample | website/static/js/statistics.js:147-149 | with label 5 given as a number and as a string, the upper row's value is charted |
| Statistics.StripOsfPrefix | website/static/js/statistics.js:197 | a leading `OSF | ` is removed and the rest kept; any other title is unchanged |
| Statistics.StripOsfPrefixOnce | website/static/js/statistics.js:197 | only the first of two leading `OSF | ` is removed |
| Statistics.MungeTitle | website/static/js/statistics.js:196-204 | the result is never empty; a title not starting with the project title is kept; one that does loses the project title and one more character, the rest reassembling the title, and becomes 'Home' when nothing is left |
| Statistics.ProjectPageIsHome | website/static/js/statistics.js:199-204 | the project's own page title, with or without `OSF | `, is charted as 'Home' |
| Statistics.MungePageTitles | website/static/js/statistics.js:195-206 | the header and every value are kept and every data label is munged; a label that is not a string makes the munger throw |
| Pagination.FirstLink | api/base/pagination.py:18-22 | absent exactly when there is no previous page; otherwise the request URL without the page parameter, other parameters kept |
| Pagination.LastLink | api/base/pagination.py:24-29 | absent exactly when there is no next page; otherwise the request URL with the page parameter set to the number of pages |
| Pagination.PreviousLink | api/base/pagination.py:37 | absent exactly when there is no previous page; otherwise it points at the previous page, other parameters kept |
| Pagination.NextLink | api/base/pagination.py:38 | absent exactly when there is no next page; otherwise it points at the next page, other parameters kept |
| Pagination.PaginatedResponse | api/base/pagination.py:31-45 | the response carries the data, meta of total and page size, and exactly the boundary-allowed links, each pointing at its page and keeping every other query parameter of the request; the first-page link carries no `page` parameter |
| Pagination.PageNumberQuery | api/base/pagination.py:50-60 | page 1 removes the page parameter, any other page sets it; other parameters kept |
| Pagination.PageNumberQueryTargets | api/base/pagination.py:50-60 | the URL built for page n asks for page n |
| Pagination.FirstRealLink | api/base/pagination.py:62-65 | absent exactly when there is no previous page; when present it never carries a page parameter |
| Pagination.LastRealLink | api/base/pagination.py:67-72 | absent exactly when there is no next page; otherwise it asks for the last page |
| Pagination.PreviousRealLink | api/base/pagination.py:74-79 | absent exactly when there is no previous page; otherwise it asks for the previous page number |
| Pagination.NextRealLink | api/base/pagination.py:81-86 | absent exactly when there is no next page; otherwise it asks for the next page number |
| Pagination.RealLinksAgreeWithBase | api/base/pagination.py:62-86 | on a valid page and the request's own URL, the embedded links are the base class's links |
| Pagination.EmbeddedPaginatedResponse | api/base/pagination.py:88-115 | same data, meta and link rules; a truthy `no_embeds` URL keyword argument makes the links point at the view URL reversed with the other keyword arguments, carrying no parameter but the page; otherwise they keep the request's parameters |
| Pagination.NumPages | api/base/pagination.py:128 | at least one page, and just enough pages for every item |
| Pagination.FirstPageHasNext | api/base/pagination.py:128-131 | page 1 has a next page exactly when the items outnumber the page size |
| Pagination.PaginateQueryset | api/base/pagination.py:117-146 | a resource with a truthy `no_embeds` gets None without a page size and otherwise page 1 of the page count Django computes, holding the first page-size items, whatever page was asked; anything else goes to the base class |
| Strings.Split | website/project/taxonomies/__init__.py:37 | there is at least one part, no part contains the separator (empty parts are kept), and there is a single part exactly when the separator does not occur |
| Strings.SplitCount | website/project/taxonomies/__init__.py:37 | there is one more part than there are separators |
| Strings.JoinSplit | website/project/taxonomies/__init__.py:37 | joining the parts of a split gives back the path |
| Taxonomies.TextOf | website/project/taxonomies/__init__.py:37-38 | a subject's text is the path's last `_`-separated segment: a suffix with no `_`, preceded by `_` unless it is the whole path |
| Taxonomies.ParentText | website/project/taxonomies/__init__.py:37-40 | there is a parent text exactly when the path has more than one segment; it is the second-to-last segment: the path ends with it, `_` and the subject's text, with `_` or the start of the path before it, and it holds no `_` |
| Taxonomies.FindParent | website/project/taxonomies/__init__.py:39-47 | a one-segment path has no parent; otherwise the parent is found exactly when the store holds the 'plos' subject whose text is the second-to-last segment, and it is that subject |
| Taxonomies.Upsert | website/project/taxonomies/__init__.py:51-66 | the subject keyed by (text, 'plos') is updated in place with its parent overwritten (even with None), or created with the parent as `parent_id`; no other subject changes |
| Taxonomies.EnsureTaxonomies | website/project/taxonomies/__init__.py:26-66 | afterwards the store holds the old subjects plus one 'plos' subject per written text, carrying that text; subjects no path names are untouched |
| Taxonomies.ParentFoundOnlyIfEarlier | website/project/taxonomies/__init__.py:41-47 | a path's parent is found iff it was stored before or an earlier path created it; a parent listed later is not found |
| Taxonomies.UnnamedSubjectKept | website/project/taxonomies/__init__.py:51-66 | paths that never name a subject leave it exactly as it was |
| Taxonomies.LastWriteWins | website/project/taxonomies/__init__.py:51-66 | the last path naming a subject decides its parent, as a field update if the subject existed before that path and as `parent_id` if that path created it |

## Left out

- Signing: the HMAC signer is the opaque `signPayload`. Verification and the freshness window belong to the callback receiver and are not modelled.
- Retries: `utils.async_retry` is not part of this model. The hook call records only its budget (5 retries, backoff 5).
- Collaborators: `get_identity`, `utils.make_provider`, `json.loads`, UTF-8 decoding and Django's `reverse` are uninterpreted functions. Their own failures are whatever `Result` they return.
- Hook request: `aiohttp.request` is not called. `SendHook` returns a description of the PUT it would send, and the request's outcome and response are not modelled.
- ProviderHandler.Handle: does not model the check Tornado's `RequestHandler._execute` makes between `initialize` and `prepare`. That check answers `HTTPError(405)` for a verb outside `SUPPORTED_METHODS`, so `?method=foo` is rejected before `prepare` runs, while the model prepares it as an unmapped verb.
- Scheduling: Tornado coroutine scheduling and suspension are not modelled. `prepare` is a sequence of steps.
- Side effects: `captureException` in `write_error` and the CORS headers of `set_default_headers` only set headers or report, so they are left out.
- ProviderHandler.SendHook: `time.time()` is a float; the model takes the current time as a whole number of seconds `now`.
- HandlerBase.OverrideMethod: upper-cases ASCII letters only. It does not model Tornado's whitespace stripping or control-character replacement in `get_query_argument`.
- Strings.ToUpper: ASCII letters only; Unicode case mapping is not modelled.
- Statistics: the Keen client, `buildChart` and its promise handling, dataviz rendering, chart options and `_hideNonIntegers` (number coercion) are left out. The other charts are only queries.
- Statistics.MungeTitle: strings are sequences of characters. JavaScript counts `length` and `slice` in UTF-16 code units, so after a title character outside the Basic Multilingual Plane the cut can fall inside a surrogate pair; that is not modelled.
- Statistics.MungePageTitles: assumes that the dataset library's `updateColumn` visits the data rows and not the header row. That library is not part of this model.
- Statistics.MungeHours: Keen rows with more than two columns, and cells that are floats, booleans or `undefined`, are not modelled.
- Pagination: URLs are a location plus single-valued query parameters. DRF's URL parsing, multi-valued parameters and sorted re-encoding are not modelled, nor is `build_absolute_uri`'s host resolution.
- Pagination.PreviousLink, Pagination.NextLink: these follow the Django REST framework base class, whose code is not part of this model.
- Pagination.PaginateQueryset: `get_page_size` is an input. The base class's pagination is the `standard` parameter. `_handle_backwards_compat` and `display_page_controls` (UI only) are left out. The `InvalidPage` branch cannot be reached for page 1 when empty first pages are allowed.
- Pagination.NumPages: assumes Django's defaults `orphans = 0` and `allow_empty_first_page = True`.
- Taxonomies: reading and parsing the taxonomy file, the ORM's `find_one`, `save` and `unique_on`, and the `_id`/`id` fields are left out. The store is an in-memory map.
- Taxonomies.Upsert: a lookup that finds several subjects cannot occur, because the store is keyed by (text, type). What the ORM does with the `parent_id` keyword is not visible, so the model only records which form was used.
- Out of scope: `website/app.py`, `website/models.py`, `admin/common_auth/views.py`, `website/addons/zotero/views.py` and `api/taxonomies/views.py`. They are startup wiring and ORM/view glue outside the modelled core.
- JSON: floating-point numbers are not modelled.

=== FILE: cross_provider_handler.dfy ===
/** The cross-provider handler: the memoised JSON body, `make_provider`
    (identity resolution that keeps the callback URL on the handler) and
    `prepare`, which builds the source and then the destination provider and
    finally completes a directory destination with the source's file name. */
module CrossProviderHandler {
  import opened Wrappers
  import opened Strings
  import opened JsonValues
  import opened HandlerBase

  const PathKey := "path"
  const SourceKey := "source"
  const DestinationKey := "destination"

  /** The handler's request state. `cachedJson` is `self._json`: unset
      (None), or set to the parsed body or to Python `None`. */
  datatype CrossState = CrossState(
    verb: string,
    body: Bytes,
    jsonRequired: bool,
    cachedJson: Option<Option<Json>>,
    action: Option<string>,
    sourceProvider: Option<Provider>,
    destinationProvider: Option<Provider>,
    callbackUrl: Option<string>)

  /** `json.loads(body.decode('utf-8'))`; both failures are `ValueError`s. */
  function ParseBody(body: Bytes, env: Env): (r: Option<Json>)
    ensures env.decodeUtf8(body).None? ==> r.None?
    ensures env.decodeUtf8(body).Some? ==> r == env.loadJson(env.decodeUtf8(body).value)
  {
    match env.decodeUtf8(body)
    case None => None
    case Some(text) => env.loadJson(text)
  }

  /** The value of one read of the `json` property and the state after it. */
  datatype JsonRead = JsonRead(value: Result<Option<Json>, Exception>, state: CrossState)

  /** The `json` property: a cached value is returned as is; otherwise the
      body is parsed and cached, and an unparseable body is cached as None,
      or raises (and caches nothing) when the handler requires JSON. */
  function ReadJson(s: CrossState, env: Env): (r: JsonRead)
    ensures r.state == s.(cachedJson := r.state.cachedJson)
    ensures s.cachedJson.Some? ==> r == JsonRead(Ok(s.cachedJson.value), s)
    ensures r.value.Ok? ==> r.state.cachedJson == Some(r.value.value)
    ensures r.value.Err? <==> s.cachedJson.None? && ParseBody(s.body, env).None? && s.jsonRequired
    ensures r.value.Err? ==> r.value.error == BareException && r.state == s
    ensures s.cachedJson.None? && r.value.Ok? ==>
              r.value.value == ParseBody(s.body, env)
  {
    if s.cachedJson.Some? then JsonRead(Ok(s.cachedJson.value), s)
    else
      match ParseBody(s.body, env)
      case Some(j) => JsonRead(Ok(Some(j)), s.(cachedJson := Some(Some(j))))
      case None =>
        if s.jsonRequired then JsonRead(Err(BareException), s)
        else JsonRead(Ok(None), s.(cachedJson := Some(None)))
  }

  /** The property is memoised: reading it again gives the same value and
      changes nothing further. */
  lemma ReadJsonMemoised(s: CrossState, env: Env)
    ensures ReadJson(ReadJson(s, env).state, env) == ReadJson(s, env)
  {
  }

  /** `self.json[key]` with the dict it was taken from and the state after
      the property read. */
  datatype Member = Member(root: map<string, Json>, value: Json, state: CrossState)

  function Subscript(s: CrossState, key: string, env: Env): (r: Result<Member, Exception>)
    ensures r.Ok? ==> ReadJson(s, env).value == Ok(Some(JObject(r.value.root)))
    ensures r.Ok? ==> key in r.value.root && r.value.value == r.value.root[key]
    ensures r.Ok? ==> r.value.state == ReadJson(s, env).state
    ensures r.Ok? ==> r.value.state.cachedJson == Some(Some(JObject(r.value.root)))
    ensures ReadJson(s, env).value == Ok(None) ==> r.Err? && r.error.TypeError?
    ensures ReadJson(s, env).value.Err? ==> r == Err(ReadJson(s, env).value.error)
    ensures var read := ReadJson(s, env).value;
            read.Ok? && read.value.Some? ==>
              var j := read.value.value;
              && (!j.JObject? ==> r.Err? && r.error.TypeError?)
              && (j.JObject? && key !in j.fields ==> r == Err(KeyError(key)))
              && (j.JObject? && key in j.fields ==> r.Ok? && r.value.root == j.fields)
  {
    var read := ReadJson(s, env);
    var j :- read.value;
    match j
    case None => Err(TypeError("'NoneType' object is not subscriptable"))
    case Some(JObject(fields)) =>
      if key in fields then Ok(Member(fields, fields[key], read.state)) else Err(KeyError(key))
    case Some(_) => Err(TypeError("indices must be integers"))
  }

  /** The keyword arguments `get_identity` receives from `make_provider`:
      the descriptor's own keys (its `provider` among them) plus `action`. */
  function IdentityRequest(action: string, desc: map<string, Json>): (r: map<string, Json>)
    ensures r.Keys == desc.Keys + {ActionArg}
    ensures r[ActionArg] == JString(action)
    ensures forall k :: k in desc && k != ActionArg ==> r[k] == desc[k]
  {
    desc[ActionArg := JString(action)]
  }

  /** A descriptor Python can bind to `make_provider(self, provider, **kwargs)`
      once `action` is added: it names a provider and holds neither `self`
      nor `action`. */
  predicate Bindable(desc: map<string, Json>) {
    ProviderArg in desc && "self" !in desc && ActionArg !in desc
  }

  /** A provider built by `make_provider` and the handler state after it. */
  datatype Built = Built(provider: Provider, state: CrossState)

  /** `make_provider(**desc)`: resolves identity for the descriptor, stores
      the payload's callback URL on the handler (replacing any earlier one),
      and builds the provider from the descriptor's `provider` and the
      payload's auth, credentials and settings; the callback URL is not
      passed to the factory. Python's argument binding rejects a descriptor
      that is not an object, lacks `provider`, or carries `self` or `action`. */
  function MakeProvider(s: CrossState, actionMap: map<string, string>, desc: Json, env: Env): (r: Result<Built, Exception>)
    ensures r.Ok? ==>
              && desc.JObject? && ProviderArg in desc.fields
              && "self" !in desc.fields && ActionArg !in desc.fields
              && s.verb in actionMap
              && var id := env.getIdentity(IdentityRequest(actionMap[s.verb], desc.fields));
                 && id.Ok?
                 && r.value.state == s.(callbackUrl := Some(id.value.callbackUrl))
                 && env.makeProvider(desc.fields[ProviderArg], id.value.auth, id.value.credentials, id.value.settings)
                      == Ok(r.value.provider)
    ensures !(desc.JObject? && Bindable(desc.fields)) || s.verb !in actionMap ==> r.Err?
    ensures desc.JObject? && Bindable(desc.fields) && s.verb in actionMap ==>
              var id := env.getIdentity(IdentityRequest(actionMap[s.verb], desc.fields));
              && (id.Err? ==> r == Err(id.error))
              && (id.Ok? ==>
                    var made := env.makeProvider(desc.fields[ProviderArg], id.value.auth, id.value.credentials, id.value.settings);
                    && (r.Ok? <==> made.Ok?)
                    && (made.Err? ==> r == Err(made.error)))
  {
    if !desc.JObject? then Err(TypeError("argument after ** must be a mapping"))
    else if "self" in desc.fields then Err(TypeError("got multiple values for argument 'self'"))
    else if ProviderArg !in desc.fields then Err(TypeError("missing required argument 'provider'"))
    else if s.verb !in actionMap then Err(KeyError(s.verb))
    else if ActionArg in desc.fields then Err(TypeError("got multiple values for keyword argument 'action'"))
    else
      var payload :- env.getIdentity(IdentityRequest(actionMap[s.verb], desc.fields));
      var s' := s.(callbackUrl := Some(payload.callbackUrl));
      var provider :- env.makeProvider(desc.fields[ProviderArg], payload.auth, payload.credentials, payload.settings);
      Ok(Built(provider, s'))
  }

  /** The destination rewrite: a destination ending in `/` gets the final
      segment of the source path appended; any other is left alone. */
  function RewriteDestination(destination: string, source: string): (r: string)
    ensures !EndsWith(destination, "/") ==> r == destination
    ensures EndsWith(destination, "/") ==> StartsWith(r, destination) && '/' !in r[|destination|..]
  {
    if EndsWith(destination, "/") then destination + PathTail(source) else destination
  }

  /** A rewritten destination names the same file as the source, inside the
      requested directory; rewriting again changes nothing. */
  lemma RewriteDestinationProperties(destination: string, source: string)
    ensures EndsWith(destination, "/") ==>
              PathTail(RewriteDestination(destination, source)) == PathTail(source)
    ensures RewriteDestination(RewriteDestination(destination, source), source) == RewriteDestination(destination, source)
  {
    var tail := PathTail(source);
    if EndsWith(destination, "/") {
      PathTailAfterSlash(destination, tail);
      var r := destination + tail;
      assert RewriteDestination(destination, source) == r;
      if |tail| > 0 {
        assert r[|r| - 1] == tail[|tail| - 1];
        EndsWithSlash(r);
      } else {
        assert r == destination;
      }
    }
  }

  /** The example of a copy into `/backup/`. */
  lemma RewriteDestinationExample()
    ensures RewriteDestination("/a/b/", "/x/y/file.txt") == "/a/b/file.txt"
    ensures RewriteDestination("/a/b/file.txt", "/x/y/file.txt") == "/a/b/file.txt"
  {
    assert PathTail("/x/y/file.txt") == "file.txt";
  }

  /** A body whose destination path can be read and, when it names a
      directory, completed from a source path. */
  predicate Completable(j: Json) {
    && j.JObject? && DestinationKey in j.fields
    && var dst := j.fields[DestinationKey];
       && dst.JObject? && PathKey in dst.fields && dst.fields[PathKey].JString?
       && (EndsWith(dst.fields[PathKey].s, "/") ==>
             && SourceKey in j.fields && j.fields[SourceKey].JObject?
             && PathKey in j.fields[SourceKey].fields && j.fields[SourceKey].fields[PathKey].JString?)
  }

  /** The last step of `prepare`: reads the destination path (after both
      providers exist) and, when it ends in `/`, writes the rewritten path
      back into the cached body. */
  function CompleteDestination(s: CrossState, env: Env): (r: Result<CrossState, Exception>)
    ensures r.Ok? ==>
              var read := ReadJson(s, env);
              && read.value.Ok? && read.value.value.Some?
              && var body := read.value.value.value;
                 && body.JObject? && DestinationKey in body.fields
                 && var dst := body.fields[DestinationKey];
                    && dst.JObject? && PathKey in dst.fields && dst.fields[PathKey].JString?
                    && var path := dst.fields[PathKey].s;
                       && (!EndsWith(path, "/") ==> r.value == read.state)
                       && (EndsWith(path, "/") ==>
                             && SourceKey in body.fields && body.fields[SourceKey].JObject?
                             && PathKey in body.fields[SourceKey].fields
                             && body.fields[SourceKey].fields[PathKey].JString?
                             && r.value == read.state.(cachedJson := Some(Some(JObject(body.fields[
                                  DestinationKey := JObject(dst.fields[PathKey := JString(
                                    RewriteDestination(path, body.fields[SourceKey].fields[PathKey].s))])])))))
    ensures var read := ReadJson(s, env).value;
            r.Ok? <==> read.Ok? && read.value.Some? && Completable(read.value.value)
  {
    var dst :- Subscript(s, DestinationKey, env);
    if !dst.value.JObject? then Err(TypeError("indices must be integers"))
    else if PathKey !in dst.value.fields then Err(KeyError(PathKey))
    else if !dst.value.fields[PathKey].JString? then Err(AttributeError("endswith"))
    else
      var path := dst.value.fields[PathKey].s;
      if !EndsWith(path, "/") then Ok(dst.state)
      else
        var src :- Subscript(dst.state, SourceKey, env);
        if !src.value.JObject? then Err(TypeError("indices must be integers"))
        else if PathKey !in src.value.fields then Err(KeyError(PathKey))
        else if !src.value.fields[PathKey].JString? then Err(TypeError("expected str, bytes or os.PathLike object"))
        else
          var rewritten := RewriteDestination(path, src.value.fields[PathKey].s);
          var dst' := JObject(dst.value.fields[PathKey := JString(rewritten)]);
          Ok(src.state.(cachedJson := Some(Some(JObject(src.root[DestinationKey := dst'])))))
  }

  /** A body a cross-provider request can succeed with: an object whose
      `source` and `destination` are objects, the destination having a
      string `path`. */
  predicate TaskShaped(j: Json) {
    && j.JObject? && SourceKey in j.fields && DestinationKey in j.fields
    && j.fields[SourceKey].JObject? && j.fields[DestinationKey].JObject?
    && PathKey in j.fields[DestinationKey].fields && j.fields[DestinationKey].fields[PathKey].JString?
  }

  function SourceOf(j: Json): map<string, Json>
    requires TaskShaped(j)
  {
    j.fields[SourceKey].fields
  }

  function DestinationOf(j: Json): map<string, Json>
    requires TaskShaped(j)
  {
    j.fields[DestinationKey].fields
  }

  function DestinationPath(j: Json): string
    requires TaskShaped(j)
  {
    j.fields[DestinationKey].fields[PathKey].s
  }

  /** Reading the body depends on the body, the JSON requirement and the
      cache only. */
  lemma ReadJsonFrame(s: CrossState, t: CrossState, env: Env)
    requires s.body == t.body && s.jsonRequired == t.jsonRequired && s.cachedJson == t.cachedJson
    ensures ReadJson(t, env).value == ReadJson(s, env).value
    ensures ReadJson(t, env).state == t.(cachedJson := ReadJson(s, env).state.cachedJson)
  {
  }

  /** What a mapped request needs to be prepared: a task-shaped body with
      bindable descriptors, identity granted and a provider built for the
      source and then for the destination, and a string source path when
      the destination names a directory. */
  predicate Proceeds(body: Json, action: string, env: Env) {
    && TaskShaped(body) && Bindable(SourceOf(body)) && Bindable(DestinationOf(body))
    && var srcId := env.getIdentity(IdentityRequest(action, SourceOf(body)));
       var dstId := env.getIdentity(IdentityRequest(action, DestinationOf(body)));
       && srcId.Ok?
       && env.makeProvider(SourceOf(body)[ProviderArg], srcId.value.auth, srcId.value.credentials, srcId.value.settings).Ok?
       && dstId.Ok?
       && env.makeProvider(DestinationOf(body)[ProviderArg], dstId.value.auth, dstId.value.credentials, dstId.value.settings).Ok?
       && (EndsWith(DestinationPath(body), "/") ==> PathKey in SourceOf(body) && SourceOf(body)[PathKey].JString?)
  }

  /** `BaseCrossProviderHandler.prepare`: a verb outside the table changes
      nothing. Otherwise the action is stored, the source and then the
      destination provider are built from their descriptors as the body
      holds them, so the handler keeps the destination's callback URL; only
      then is a destination ending in `/` completed with the source's file
      name, in the cached body. */
  function Prepare(s: CrossState, actionMap: map<string, string>, env: Env): (r: Result<CrossState, Exception>)
    ensures s.verb !in actionMap ==> r == Ok(s)
    ensures s.verb in actionMap && r.Ok? ==>
              && r.value.action == Some(actionMap[s.verb])
              && r.value.sourceProvider.Some? && r.value.destinationProvider.Some?
              && var read := ReadJson(s, env);
                 && read.value.Ok? && read.value.value.Some? && TaskShaped(read.value.value.value)
                 && var body := read.value.value.value;
                    var action := actionMap[s.verb];
                    var srcId := env.getIdentity(IdentityRequest(action, SourceOf(body)));
                    var dstId := env.getIdentity(IdentityRequest(action, DestinationOf(body)));
                    && ProviderArg in SourceOf(body) && ProviderArg in DestinationOf(body)
                    && srcId.Ok? && dstId.Ok?
                    && r.value.callbackUrl == Some(dstId.value.callbackUrl)
                    && env.makeProvider(SourceOf(body)[ProviderArg], srcId.value.auth, srcId.value.credentials, srcId.value.settings)
                         == Ok(r.value.sourceProvider.value)
                    && env.makeProvider(DestinationOf(body)[ProviderArg], dstId.value.auth, dstId.value.credentials, dstId.value.settings)
                         == Ok(r.value.destinationProvider.value)
                    && r.value.cachedJson.Some? && r.value.cachedJson.value.Some?
                    && var final := r.value.cachedJson.value.value;
                       && TaskShaped(final)
                       && (!EndsWith(DestinationPath(body), "/") ==> final == body)
                       && (EndsWith(DestinationPath(body), "/") ==>
                             && PathKey in SourceOf(body) && SourceOf(body)[PathKey].JString?
                             && final == JObject(body.fields[DestinationKey := JObject(DestinationOf(body)[PathKey := JString(
                                  RewriteDestination(DestinationPath(body), SourceOf(body)[PathKey].s))])]))
    ensures s.verb in actionMap ==>
              var read := ReadJson(s, env).value;
              r.Ok? <==> read.Ok? && read.value.Some? && Proceeds(read.value.value, actionMap[s.verb], env)
    ensures r.Ok? ==> r.value.verb == s.verb && r.value.body == s.body && r.value.jsonRequired == s.jsonRequired
  {
    if s.verb !in actionMap then Ok(s)
    else
      var s1 := s.(action := Some(actionMap[s.verb]));
      ReadJsonFrame(s, s1, env);
      var src :- Subscript(s1, SourceKey, env);
      var b1 :- MakeProvider(src.state, actionMap, src.value, env);
      var s2 := b1.state.(sourceProvider := Some(b1.provider));
      var dst :- Subscript(s2, DestinationKey, env);
      var b2 :- MakeProvider(dst.state, actionMap, dst.value, env);
      var s3 := b2.state.(destinationProvider := Some(b2.provider));
      CompleteDestination(s3, env)
  }

  /** Fail-fast: when the source's identity is refused, `prepare` raises
      that error before anything of the destination is looked at. */
  lemma SourceIdentityFailureAborts(s: CrossState, actionMap: map<string, string>, env: Env, body: Json)
    requires s.verb in actionMap
    requires ReadJson(s, env).value == Ok(Some(body))
    requires body.JObject? && SourceKey in body.fields && body.fields[SourceKey].JObject?
    requires Bindable(body.fields[SourceKey].fields)
    requires env.getIdentity(IdentityRequest(actionMap[s.verb], body.fields[SourceKey].fields)).Err?
    ensures Prepare(s, actionMap, env) == Err(env.getIdentity(IdentityRequest(actionMap[s.verb], body.fields[SourceKey].fields)).error)
  {
  }

  /** Fail-fast: when the destination's identity is refused, `prepare`
      raises that error, after the source provider was built and before
      the destination path is touched. */
  lemma DestinationIdentityFailureAborts(s: CrossState, actionMap: map<string, string>, env: Env, body: Json)
    requires s.verb in actionMap
    requires ReadJson(s, env).value == Ok(Some(body)) && TaskShaped(body)
    requires Bindable(SourceOf(body)) && Bindable(DestinationOf(body))
    requires var srcId := env.getIdentity(IdentityRequest(actionMap[s.verb], SourceOf(body)));
             && srcId.Ok?
             && env.makeProvider(SourceOf(body)[ProviderArg], srcId.value.auth, srcId.value.credentials, srcId.value.settings).Ok?
    requires env.getIdentity(IdentityRequest(actionMap[s.verb], DestinationOf(body))).Err?
    ensures Prepare(s, actionMap, env) == Err(env.getIdentity(IdentityRequest(actionMap[s.verb], DestinationOf(body))).error)
  {
  }

  /** The final segment of `/notes/report.pdf` lands in `/backup/`. */
  lemma RewriteIntoBackupExample()
    ensures RewriteDestination("/backup/", "/notes/report.pdf") == "/backup/report.pdf"
  {
    var dir, name, source := "/notes/", "report.pdf", "/notes/report.pdf";
    ExamplePieces();
    PathTailAfterSlash(dir, name);
    assert PathTail(source) == name;
    assert RewriteDestination("/backup/", source) == "/backup/" + name;
  }

  /** The literal facts the example rests on. */
  lemma ExamplePieces()
    ensures EndsWith("/notes/", "/") && EndsWith("/backup/", "/")
    ensures '/' !in "report.pdf"
    ensures "/notes/" + "report.pdf" == "/notes/report.pdf"
    ensures "/backup/" + "report.pdf" == "/backup/report.pdf"
  {
    EndsWithSlash("/notes/");
    EndsWithSlash("/backup/");
    var name := "report.pdf";
    assert forall i :: 0 <= i < |name| ==> name[i] != '/';
  }

  /** A copy of `/notes/report.pdf` into `/backup/` is prepared with the
      destination path `/backup/report.pdf`. */
  lemma CopyIntoDirectoryExample(s: CrossState, actionMap: map<string, string>, env: Env, body: Json)
    requires s.verb in actionMap
    requires ReadJson(s, env).value == Ok(Some(body)) && Proceeds(body, actionMap[s.verb], env)
    requires DestinationPath(body) == "/backup/"
    requires SourceOf(body)[PathKey] == JString("/notes/report.pdf")
    ensures var r := Prepare(s, actionMap, env);
            && r.Ok? && r.value.cachedJson.Some? && r.value.cachedJson.value.Some?
            && TaskShaped(r.value.cachedJson.value.value)
            && DestinationPath(r.value.cachedJson.value.value) == "/backup/report.pdf"
  {
    ExamplePieces();
    RewriteIntoBackupExample();
  }
}

=== FILE: decimal.dfy ===
/** Decimal text of natural numbers: Python's `str(n)` and JavaScript's `'' + n`,
    as used for hour labels and for page numbers in query strings. */
module Decimal {
  import opened Wrappers

  predicate IsDigit(c: char) {
    '0' <= c <= '9'
  }

  predicate AllDigits(s: string) {
    forall i :: 0 <= i < |s| ==> IsDigit(s[i])
  }

  function DigitChar(d: nat): (c: char)
    requires d < 10
    ensures IsDigit(c)
  {
    ('0' as int + d) as char
  }

  function DigitValue(c: char): (d: nat)
    requires IsDigit(c)
    ensures d < 10 && DigitChar(d) == c
  {
    c as int - '0' as int
  }

  /** The shortest decimal text of `n` (no sign, no leading zeros). */
  function NatToString(n: nat): (s: string)
    ensures 1 <= |s|
    ensures AllDigits(s)
    ensures |s| == 1 <==> n < 10
    ensures |s| > 1 ==> s[0] != '0'
    decreases n
  {
    if n < 10 then [DigitChar(n)] else NatToString(n / 10) + [DigitChar(n % 10)]
  }

  /** The value of a string of digits, most significant first. */
  function DigitsValue(s: string): nat
    requires AllDigits(s)
    decreases |s|
  {
    if |s| == 0 then 0 else DigitsValue(s[..|s| - 1]) * 10 + DigitValue(s[|s| - 1])
  }

  /** `int(s)` restricted to plain digit strings: None for anything else. */
  function ParseNat(s: string): (r: Option<nat>)
    ensures r.Some? <==> |s| > 0 && AllDigits(s)
  {
    if |s| > 0 && AllDigits(s) then Some(DigitsValue(s)) else None
  }

  /** Parsing the decimal text of `n` gives back `n`. */
  lemma {:induction false} ParseNatToString(n: nat)
    ensures ParseNat(NatToString(n)) == Some(n)
    decreases n
  {
    var s := NatToString(n);
    if n < 10 {
      assert s[..|s| - 1] == [];
      assert DigitsValue(s) == DigitsValue([]) * 10 + DigitValue(s[0]);
      assert DigitValue(DigitChar(n)) == n;
    } else {
      ParseNatToString(n / 10);
      assert s[..|s| - 1] == NatToString(n / 10);
      assert DigitValue(s[|s| - 1]) == n % 10;
    }
  }

  /** Distinct numbers have distinct decimal texts. */
  lemma NatToStringInjective(m: nat, n: nat)
    ensures NatToString(m) == NatToString(n) <==> m == n
  {
    if NatToString(m) == NatToString(n) {
      ParseNatToString(m);
      ParseNatToString(n);
    }
  }
}

=== FILE: handler_base.dfy ===
/** The request handler base of the storage gateway: query-argument
    collapsing, the `?method=` override, status reasons, error replies and
    the CORS preflight reply. Also the shapes shared by both provider
    handlers: exceptions, the identity payload and the collaborators whose
    code is not part of this model. */
module HandlerBase {
  import opened Wrappers
  import opened Strings
  import opened JsonValues

  type Bytes = seq<bv8>

  /** The query or descriptor keys naming the action and the provider. */
  const ActionArg := "action"
  const ProviderArg := "provider"

  /** A collapsed query argument: Python `None`, one string, or a list of strings. */
  datatype ArgValue = ArgNone | ArgText(text: string) | ArgList(items: seq<string>)

  /** The exceptions the handlers raise or let propagate. */
  datatype Exception =
    | ProviderError(code: int, message: string, data: Json)
      // Tornado's HTTPError, raised when a query argument is not valid UTF-8
    | HttpError(status: int)
    | UnicodeDecodeError
    | KeyError(key: string)
    | TypeError(reason: string)
    | AttributeError(name: string)
      // the bare `raise Exception` of a required but unparseable JSON body
    | BareException
      // anything else a collaborator raises
    | Raised(name: string)

  /** What identity resolution returns. */
  datatype IdentityPayload = IdentityPayload(auth: Json, credentials: Json, settings: Json, callbackUrl: string)

  /** An opaque handle on a constructed storage provider. */
  datatype Provider = Provider(handle: nat)

  /** The output of `signer.sign_payload`. */
  datatype SignedMessage = SignedMessage(message: Bytes, signature: string)

  /** Collaborators whose code is not part of this model, as uninterpreted
      total functions: UTF-8 decoding, `json.loads`, `get_identity` (with the
      configured identity method), `utils.make_provider` and the HMAC signer. */
  datatype Env = Env(
    decodeUtf8: Bytes -> Option<string>,
    loadJson: string -> Option<Json>,
    getIdentity: map<string, Json> -> Result<IdentityPayload, Exception>,
    makeProvider: (Json, Json, Json, Json) -> Result<Provider, Exception>,
    signPayload: Json -> SignedMessage)

  /** Decodes every item, in order; None as soon as one item is not valid. */
  function DecodeAll(items: seq<Bytes>, decode: Bytes -> Option<string>): (r: Option<seq<string>>)
    ensures r.Some? <==> forall i :: 0 <= i < |items| ==> decode(items[i]).Some?
    ensures r.Some? ==> |r.value| == |items|
    ensures r.Some? ==> forall i :: 0 <= i < |items| ==> decode(items[i]) == Some(r.value[i])
    decreases |items|
  {
    if |items| == 0 then Some([])
    else
      match (decode(items[0]), DecodeAll(items[1..], decode))
      case (Some(x), Some(xs)) => Some([x] + xs)
      case _ => None
  }

  /** `list_or_value`: no values give None, one value gives that value
      decoded, several give all of them decoded in order. */
  function ListOrValue(value: seq<Bytes>, decode: Bytes -> Option<string>): (r: Result<ArgValue, Exception>)
    ensures |value| == 0 ==> r == Ok(ArgNone)
    ensures |value| == 1 ==> (r.Ok? <==> decode(value[0]).Some?)
    ensures |value| == 1 && r.Ok? ==> r.value == ArgText(decode(value[0]).value)
    ensures |value| >= 2 ==> (r.Ok? <==> forall i :: 0 <= i < |value| ==> decode(value[i]).Some?)
    ensures |value| >= 2 && r.Ok? ==> r.value.ArgList? && |r.value.items| == |value|
    ensures |value| >= 2 && r.Ok? ==> forall i :: 0 <= i < |value| ==> decode(value[i]) == Some(r.value.items[i])
    ensures r.Err? ==> r.error == UnicodeDecodeError
  {
    if |value| == 0 then Ok(ArgNone)
    else if |value| == 1 then
      match decode(value[0])
      case Some(s) => Ok(ArgText(s))
      case None => Err(UnicodeDecodeError)
    else
      match DecodeAll(value, decode)
      case Some(xs) => Ok(ArgList(xs))
      case None => Err(UnicodeDecodeError)
  }

  /** The strings an argument value stands for, in order. */
  function ArgStrings(a: ArgValue): seq<string> {
    match a
    case ArgNone => []
    case ArgText(s) => [s]
    case ArgList(xs) => xs
  }

  /** Collapsing loses only the list-versus-scalar shape: the strings of the
      collapsed value are exactly the decoded values, in order. */
  lemma ListOrValueKeepsValues(value: seq<Bytes>, decode: Bytes -> Option<string>)
    ensures ListOrValue(value, decode).Ok? <==> DecodeAll(value, decode).Some?
    ensures ListOrValue(value, decode).Ok? ==>
              ArgStrings(ListOrValue(value, decode).value) == DecodeAll(value, decode).value
  {
    var d := DecodeAll(value, decode);
    if |value| == 1 && d.Some? {
      assert decode(value[0]) == Some(d.value[0]);
      assert d.value == [d.value[0]];
    }
  }

  /** The argument dict built at the top of `prepare`: every query key is
      kept, even one with no values (it maps to None). */
  function CollapseArguments(query: map<string, seq<Bytes>>, decode: Bytes -> Option<string>): (r: Result<map<string, ArgValue>, Exception>)
    ensures r.Ok? <==> forall k :: k in query ==> ListOrValue(query[k], decode).Ok?
    ensures r.Ok? ==> r.value.Keys == query.Keys
    ensures r.Ok? ==> forall k :: k in query ==> ListOrValue(query[k], decode) == Ok(r.value[k])
    ensures r.Ok? ==> forall k :: k in query && |query[k]| == 0 ==> r.value[k] == ArgNone
    ensures r.Err? ==> r.error == UnicodeDecodeError
  {
    if forall k :: k in query ==> ListOrValue(query[k], decode).Ok? then
      Ok(map k | k in query :: ListOrValue(query[k], decode).value)
    else
      Err(UnicodeDecodeError)
  }

  function ArgToJson(a: ArgValue): Json {
    match a
    case ArgNone => JNull
    case ArgText(s) => JString(s)
    case ArgList(xs) => JArray(seq(|xs|, i requires 0 <= i < |xs| => JString(xs[i])))
  }

  /** The arguments as keyword arguments of `get_identity`. */
  function ArgsToJson(args: map<string, ArgValue>): (r: map<string, Json>)
    ensures r.Keys == args.Keys
  {
    map k | k in args :: ArgToJson(args[k])
  }

  const MethodParam := "method"

  /** `initialize`: a non-empty `method` query argument (its last value)
      replaces the request method, upper-cased, with no check against any
      list of verbs; an absent or empty one leaves the method alone. Reading
      the argument raises `HTTPError(400)` when one of its values is not
      valid UTF-8. */
  function OverrideMethod(verb: string, query: map<string, seq<Bytes>>, decode: Bytes -> Option<string>): (r: Result<string, Exception>)
    ensures MethodParam !in query || |query[MethodParam]| == 0 ==> r == Ok(verb)
    ensures r.Err? <==> MethodParam in query && DecodeAll(query[MethodParam], decode).None?
    ensures r.Err? ==> r.error == HttpError(400)
    ensures r.Ok? && r.value != verb ==>
              MethodParam in query && |query[MethodParam]| > 0 &&
              var last := decode(query[MethodParam][|query[MethodParam]| - 1]).value;
              last != "" && r.value == ToUpper(last)
    ensures MethodParam in query && |query[MethodParam]| > 0 && r.Ok? ==>
              var last := decode(query[MethodParam][|query[MethodParam]| - 1]).value;
              last != "" ==> r.value == ToUpper(last)
  {
    if MethodParam !in query || |query[MethodParam]| == 0 then Ok(verb)
    else
      match DecodeAll(query[MethodParam], decode)
      case None => Err(HttpError(400))
      case Some(values) =>
        var last := values[|values| - 1];
        if last == "" then Ok(verb) else Ok(ToUpper(last))
  }

  /** The non-standard reason phrases. */
  const HttpReasons: map<int, string> := map[461 := "Unavailable For Legal Reasons"]

  /** A response status and the reason handed to Tornado (None lets Tornado
      pick its own phrase). */
  datatype Status = Status(code: int, reason: Option<string>)

  /** `set_status(code, reason)`: the explicit reason when it is a non-empty
      string, else the entry of `HttpReasons`, else none. */
  function SetStatus(code: int, reason: Option<string>): (s: Status)
    ensures s.code == code
    ensures reason.Some? && reason.value != "" ==> s.reason == reason
    ensures (reason.None? || reason.value == "") ==>
              (s.reason.Some? <==> code in HttpReasons) &&
              (s.reason.Some? ==> s.reason.value == HttpReasons[code])
  {
    if reason.Some? && reason.value != "" then Status(code, reason)
    else if code in HttpReasons then Status(code, Some(HttpReasons[code]))
    else Status(code, None)
  }

  /** 461 is the one code that gets a reason of its own. */
  lemma LegalReasonsPhrase(code: int)
    ensures SetStatus(461, None).reason == Some("Unavailable For Legal Reasons")
    ensures code != 461 ==> SetStatus(code, None).reason == None
  {
  }

  /** What `write_error` changes: the status (None keeps the one Tornado
      already set from `status_code`) and the body it finishes with. */
  datatype ErrorReply = ErrorReply(status: Option<Status>, body: Json)

  /** `write_error`: a provider error answers with its own code and its
      truthy `data`, or a `{code, message}` envelope of its own; anything
      else answers `{code: status_code, message: reason}`. */
  function WriteError(statusCode: int, reason: string, exc: Exception): (r: ErrorReply)
    ensures exc.ProviderError? ==> r.status == Some(SetStatus(exc.code, None))
    ensures exc.ProviderError? && Truthy(exc.data) ==> r.body == exc.data
    ensures exc.ProviderError? && !Truthy(exc.data) ==> r.body == ErrorEnvelope(exc.code, exc.message)
    ensures !exc.ProviderError? ==> r.status == None && r.body == ErrorEnvelope(statusCode, reason)
  {
    match exc
    case ProviderError(code, message, data) =>
      ErrorReply(Some(SetStatus(code, None)), if Truthy(data) then data else ErrorEnvelope(code, message))
    case _ =>
      ErrorReply(None, ErrorEnvelope(statusCode, reason))
  }

  /** The status code the error response goes out with. */
  function FinalCode(statusCode: int, r: ErrorReply): int {
    if r.status.Some? then r.status.value.code else statusCode
  }

  /** Whenever the body is an envelope built by `write_error`, its `code`
      agrees with the status of the response. */
  lemma EnvelopeCodeMatchesStatus(statusCode: int, reason: string, exc: Exception)
    ensures var r := WriteError(statusCode, reason, exc);
            !(exc.ProviderError? && Truthy(exc.data)) ==>
              r.body.JObject? && r.body.fields["code"] == JInt(FinalCode(statusCode, r))
  {
  }

  /** A reply with status and headers. */
  datatype Reply = Reply(status: Status, headers: seq<(string, string)>)

  /** `options`: the CORS preflight is answered 204 allowing PUT, POST and
      DELETE, whatever the resource. */
  function Options(): (r: Reply)
    ensures r.status.code == 204 && r.status.reason == None
    ensures r.headers == [("Access-Control-Allow-Methods", "PUT, POST, DELETE")]
  {
    Reply(SetStatus(204, None), [("Access-Control-Allow-Methods", "PUT, POST, DELETE")])
  }
}

=== FILE: json.dfy ===
/** JSON-shaped Python values as the handlers see them after `json.loads`,
    and the values they hand to `self.finish` / `json.dumps`. */
module JsonValues {

  /** A JSON value; objects are Python dicts keyed by string. */
  datatype Json =
    | JNull
    | JBool(b: bool)
    | JInt(i: int)
    | JString(s: string)
    | JArray(items: seq<Json>)
    | JObject(fields: map<string, Json>)

  /** Python truthiness: `None`, `False`, `0`, `''`, `[]` and `{}` are falsy. */
  predicate Truthy(j: Json) {
    match j
    case JNull => false
    case JBool(b) => b
    case JInt(i) => i != 0
    case JString(s) => s != ""
    case JArray(items) => |items| > 0
    case JObject(fields) => |fields| > 0
  }

  /** The `{code, message}` error envelope. */
  function ErrorEnvelope(code: int, message: string): (j: Json)
    ensures j.JObject? && j.fields.Keys == {"code", "message"}
    ensures j.fields["code"] == JInt(code) && j.fields["message"] == JString(message)
  {
    JObject(map["code" := JInt(code), "message" := JString(message)])
  }
}

=== FILE: pagination.dfy ===
/** JSON-API pagination links: which of first/last/prev/next exist on a
    page, which page each points to, and the embedded variant that builds
    its links from the view's own URL and always serves page 1. */
module Pagination {
  import opened Wrappers
  import opened Decimal
  import opened JsonValues

  /** An absolute URL: everything before the query string, and the query
      parameters (one value per name). */
  datatype Url = Url(location: string, query: map<string, string>)

  /** The query parameter that carries the page number. */
  const PageParam := "page"

  /** `replace_query_param(url, key, value)`. */
  function ReplaceQueryParam(url: Url, key: string, value: string): Url {
    Url(url.location, url.query[key := value])
  }

  /** `remove_query_param(url, key)`. */
  function RemoveQueryParam(url: Url, key: string): Url {
    Url(url.location, url.query - {key})
  }

  /** Two URLs that differ at most in their page parameter. */
  predicate SameOtherParams(a: Url, b: Url) {
    a.location == b.location && a.query - {PageParam} == b.query - {PageParam}
  }

  /** The page a URL asks for: page 1 when it has no page parameter. */
  function LinkTarget(url: Url): Option<nat> {
    if PageParam !in url.query then Some(1) else ParseNat(url.query[PageParam])
  }

  /** A page of a paginator: its number, the number of pages, the item
      count and the page size. */
  datatype Page = Page(number: nat, numPages: nat, count: nat, perPage: nat)

  predicate HasPrevious(p: Page) {
    p.number > 1
  }

  predicate HasNext(p: Page) {
    p.number < p.numPages
  }

  /** The link to page 1 of the request's own URL. */
  function FirstLink(page: Page, request: Url): (r: Option<Url>)
    ensures r.None? <==> !HasPrevious(page)
    ensures r.Some? ==> PageParam !in r.value.query && SameOtherParams(r.value, request)
  {
    if !HasPrevious(page) then None else Some(RemoveQueryParam(request, PageParam))
  }

  /** The link to the last page of the request's own URL. */
  function LastLink(page: Page, request: Url): (r: Option<Url>)
    ensures r.None? <==> !HasNext(page)
    ensures r.Some? ==> PageParam in r.value.query && r.value.query[PageParam] == NatToString(page.numPages)
    ensures r.Some? ==> SameOtherParams(r.value, request)
    ensures r.Some? ==> LinkTarget(r.value) == Some(page.numPages)
  {
    if !HasNext(page) then None
    else
      ParseNatToString(page.numPages);
      Some(ReplaceQueryParam(request, PageParam, NatToString(page.numPages)))
  }

  /** The previous-page link of the paginator's base class: page 1 drops
      the parameter. */
  function PreviousLink(page: Page, request: Url): (r: Option<Url>)
    ensures r.None? <==> !HasPrevious(page)
    ensures r.Some? ==> SameOtherParams(r.value, request)
    ensures r.Some? ==> LinkTarget(r.value) == Some(page.number - 1)
  {
    if !HasPrevious(page) then None
    else if page.number - 1 == 1 then Some(RemoveQueryParam(request, PageParam))
    else
      ParseNatToString(page.number - 1);
      Some(ReplaceQueryParam(request, PageParam, NatToString(page.number - 1)))
  }

  /** The next-page link of the paginator's base class. */
  function NextLink(page: Page, request: Url): (r: Option<Url>)
    ensures r.None? <==> !HasNext(page)
    ensures r.Some? ==> SameOtherParams(r.value, request)
    ensures r.Some? ==> LinkTarget(r.value) == Some(page.number + 1)
  {
    if !HasNext(page) then None
    else
      ParseNatToString(page.number + 1);
      Some(ReplaceQueryParam(request, PageParam, NatToString(page.number + 1)))
  }

  datatype Meta = Meta(total: nat, perPage: nat)

  /** The `links` object, its members in the order they are emitted. */
  datatype Links = Links(first: Option<Url>, last: Option<Url>, prev: Option<Url>, next: Option<Url>, meta: Meta)

  datatype Response<T> = Response(data: seq<T>, links: Links)

  /** Each present link points at the page it is named for. */
  predicate LinksTarget(links: Links, page: Page) {
    && (links.first.Some? ==> LinkTarget(links.first.value) == Some(1))
    && (links.last.Some? ==> LinkTarget(links.last.value) == Some(page.numPages))
    && (links.prev.Some? ==> page.number >= 1 && LinkTarget(links.prev.value) == Some(page.number - 1))
    && (links.next.Some? ==> LinkTarget(links.next.value) == Some(page.number + 1))
  }

  /** Exactly the links a page's position allows are present. */
  predicate LinksPresent(links: Links, page: Page) {
    && (links.first.Some? <==> HasPrevious(page)) && (links.prev.Some? <==> HasPrevious(page))
    && (links.last.Some? <==> HasNext(page)) && (links.next.Some? <==> HasNext(page))
  }

  /** `JSONAPIPagination.get_paginated_response`. */
  function PaginatedResponse<T>(data: seq<T>, page: Page, request: Url): (r: Response<T>)
    ensures r.data == data && r.links.meta == Meta(page.count, page.perPage)
    ensures LinksPresent(r.links, page)
    ensures LinksTarget(r.links, page)
    ensures forall l :: l in [r.links.first, r.links.last, r.links.prev, r.links.next] && l.Some? ==>
              SameOtherParams(l.value, request)
    ensures r.links.first.Some? ==> PageParam !in r.links.first.value.query
  {
    var links := Links(FirstLink(page, request), LastLink(page, request),
                       PreviousLink(page, request), NextLink(page, request),
                       Meta(page.count, page.perPage));
    Response(data, links)
  }

  /** `page_number_query`: page 1 is the URL without a page parameter, any
      other page sets it. */
  function PageNumberQuery(url: Url, n: nat): (r: Url)
    ensures n == 1 ==> PageParam !in r.query
    ensures n != 1 ==> PageParam in r.query && r.query[PageParam] == NatToString(n)
    ensures SameOtherParams(r, url)
  {
    var replaced := ReplaceQueryParam(url, PageParam, NatToString(n));
    if n == 1 then RemoveQueryParam(replaced, PageParam) else replaced
  }

  /** A URL built by `page_number_query` asks for that page. */
  lemma PageNumberQueryTargets(url: Url, n: nat)
    requires n >= 1
    ensures LinkTarget(PageNumberQuery(url, n)) == Some(n)
  {
    ParseNatToString(n);
  }

  /** `build_absolute_uri(location)`: the request's own URL, or the given
      location with no query. */
  function BuildAbsoluteUri(request: Url, location: Option<string>): Url {
    match location
    case None => request
    case Some(l) => Url(l, map[])
  }

  function FirstRealLink(page: Page, request: Url, location: Option<string>): (r: Option<Url>)
    ensures r.None? <==> !HasPrevious(page)
    ensures r.Some? ==> PageParam !in r.value.query
  {
    if !HasPrevious(page) then None
    else Some(PageNumberQuery(BuildAbsoluteUri(request, location), 1))
  }

  function LastRealLink(page: Page, request: Url, location: Option<string>): (r: Option<Url>)
    ensures r.None? <==> !HasNext(page)
    ensures r.Some? ==> LinkTarget(r.value) == Some(page.numPages)
  {
    if !HasNext(page) then None
    else
      PageNumberQueryTargets(BuildAbsoluteUri(request, location), page.numPages);
      Some(PageNumberQuery(BuildAbsoluteUri(request, location), page.numPages))
  }

  function PreviousRealLink(page: Page, request: Url, location: Option<string>): (r: Option<Url>)
    ensures r.None? <==> !HasPrevious(page)
    ensures r.Some? ==> LinkTarget(r.value) == Some(page.number - 1)
  {
    if !HasPrevious(page) then None
    else
      PageNumberQueryTargets(BuildAbsoluteUri(request, location), page.number - 1);
      Some(PageNumberQuery(BuildAbsoluteUri(request, location), page.number - 1))
  }

  function NextRealLink(page: Page, request: Url, location: Option<string>): (r: Option<Url>)
    ensures r.None? <==> !HasNext(page)
    ensures r.Some? ==> LinkTarget(r.value) == Some(page.number + 1)
  {
    if !HasNext(page) then None
    else
      PageNumberQueryTargets(BuildAbsoluteUri(request, location), page.number + 1);
      Some(PageNumberQuery(BuildAbsoluteUri(request, location), page.number + 1))
  }

  /** The embedded variant builds the same links as the base class when it
      uses the request's own URL. */
  lemma RealLinksAgreeWithBase(page: Page, request: Url)
    requires page.number >= 1
    ensures FirstRealLink(page, request, None) == FirstLink(page, request)
    ensures LastRealLink(page, request, None) == LastLink(page, request)
    ensures PreviousRealLink(page, request, None) == PreviousLink(page, request)
    ensures NextRealLink(page, request, None) == NextLink(page, request)
  {
    if HasPrevious(page) {
      assert request.query[PageParam := NatToString(1)] - {PageParam} == request.query - {PageParam};
      if page.number - 1 == 1 {
        assert request.query[PageParam := NatToString(page.number - 1)] - {PageParam} == request.query - {PageParam};
      }
    }
  }

  /** The URL keyword argument that marks a resource as embedded. */
  const NoEmbeds := "no_embeds"

  /** `parser_context['kwargs'].get('no_embeds')`, as a condition. */
  predicate IsEmbedded(parserKwargs: map<string, Json>) {
    NoEmbeds in parserKwargs && Truthy(parserKwargs[NoEmbeds])
  }

  /** `EmbeddedPagination.get_paginated_response`: the parser's URL keyword
      arguments decide, through `no_embeds`, whether the resource is
      embedded. For an embedded resource the links are built from the view's
      URL, reversed with the other keyword arguments (`no_embeds` popped), so
      they carry no query parameter but the page; otherwise they are built
      from the request's own URL. */
  function EmbeddedPaginatedResponse<T>(data: seq<T>, page: Page, request: Url,
                                        viewName: string, parserKwargs: map<string, Json>,
                                        reverse: (string, map<string, Json>) -> string): (r: Response<T>)
    ensures r.data == data && r.links.meta == Meta(page.count, page.perPage)
    ensures LinksPresent(r.links, page)
    ensures LinksTarget(r.links, page)
    ensures r.links.first.Some? ==> PageParam !in r.links.first.value.query
    ensures IsEmbedded(parserKwargs) ==>
              forall l :: l in [r.links.first, r.links.last, r.links.prev, r.links.next] && l.Some? ==>
                l.value.location == reverse(viewName, parserKwargs - {NoEmbeds}) && l.value.query.Keys <= {PageParam}
    ensures !IsEmbedded(parserKwargs) ==>
              forall l :: l in [r.links.first, r.links.last, r.links.prev, r.links.next] && l.Some? ==>
                SameOtherParams(l.value, request)
  {
    var kwargs := parserKwargs - {NoEmbeds};
    var location := if IsEmbedded(parserKwargs) then Some(reverse(viewName, kwargs)) else None;
    Response(data, Links(FirstRealLink(page, request, location), LastRealLink(page, request, location),
                         PreviousRealLink(page, request, location), NextRealLink(page, request, location),
                         Meta(page.count, page.perPage)))
  }

  /** Rounding up a division by a positive size. */
  lemma CeilDivBounds(hits: nat, size: nat)
    requires size > 0 && hits >= 1
    ensures var n := (hits + size - 1) / size;
            n >= 1 && (n - 1) * size < hits <= n * size
  {
    var x := hits + size - 1;
    var q, r := x / size, x % size;
    assert x == q * size + r && 0 <= r < size;
    assert (q - 1) * size == q * size - size;
  }

  /** Django's page count with no orphans and an allowed empty first page:
      enough pages for every item, and at least one. */
  function NumPages(count: nat, size: nat): (n: nat)
    requires size > 0
    ensures n >= 1
    ensures (n - 1) * size < (if count == 0 then 1 else count) <= n * size
  {
    var hits := if count == 0 then 1 else count;
    CeilDivBounds(hits, size);
    (hits + size - 1) / size
  }

  /** Page 1 has a successor exactly when the items do not fit on it. */
  lemma FirstPageHasNext(count: nat, size: nat)
    requires size > 0
    ensures 1 < NumPages(count, size) <==> count > size
  {
    var n := NumPages(count, size);
    if n >= 2 {
      assert (n - 1) * size >= size by {
        assert (n - 1) * size == (n - 2) * size + size;
        assert (n - 2) * size >= 0;
      }
    }
  }

  /** A page of items. */
  datatype Paged<T> = Paged(page: Page, items: seq<T>)

  function Min(a: nat, b: nat): nat {
    if a <= b then a else b
  }

  /** `EmbeddedPagination.paginate_queryset`: an embedded resource gets no
      pagination without a page size and otherwise always page 1, whatever
      page the query asks for; any other request is paginated by the base
      class, given here as `standard`. */
  function PaginateQueryset<T>(items: seq<T>, parserKwargs: map<string, Json>, pageSize: Option<nat>,
                               standard: seq<T> -> Option<Paged<T>>): (r: Option<Paged<T>>)
    ensures !IsEmbedded(parserKwargs) ==> r == standard(items)
    ensures IsEmbedded(parserKwargs) ==> (r.Some? <==> pageSize.Some? && pageSize.value > 0)
    ensures IsEmbedded(parserKwargs) && r.Some? ==>
              && r.value.page.number == 1 && !HasPrevious(r.value.page)
              && r.value.page.count == |items| && r.value.page.perPage == pageSize.value
              && r.value.page.numPages == NumPages(|items|, pageSize.value)
              && r.value.items == items[..Min(pageSize.value, |items|)]
              && (HasNext(r.value.page) <==> |items| > pageSize.value)
  {
    if !IsEmbedded(parserKwargs) then standard(items)
    else if pageSize.None? || pageSize.value == 0 then None
    else
      var size := pageSize.value;
      FirstPageHasNext(|items|, size);
      Some(Paged(Page(1, NumPages(|items|, size), |items|, size), items[..Min(size, |items|)]))
  }
}

=== FILE: provider_handler.dfy ===
/** The single-provider handler: `prepare` resolves identity and builds one
    provider; `_send_hook` builds, signs and addresses the audit callback. */
module ProviderHandler {
  import opened Wrappers
  import opened Strings
  import opened JsonValues
  import opened HandlerBase

  /** The handler's request state once `prepare` has run. */
  datatype Prepared = Prepared(arguments: map<string, ArgValue>, payload: Option<IdentityPayload>, provider: Option<Provider>)


  /** `BaseProviderHandler.prepare` for a handler class whose method-to-action
      table is `actionMap`, on a request whose (possibly overridden) method is
      `verb`. The arguments are always collapsed; a verb outside the table
      stops there; otherwise the action is stored among the arguments, identity
      is resolved with all of them, and the provider is built from the
      `provider` argument with the payload's auth, credentials and settings. */
  function Prepare(actionMap: map<string, string>, verb: string, query: map<string, seq<Bytes>>, env: Env): (r: Result<Prepared, Exception>)
    ensures CollapseArguments(query, env.decodeUtf8).Err? ==> r == Err(UnicodeDecodeError)
    ensures r.Ok? ==> r.value.arguments.Keys == query.Keys + (if verb in actionMap then {ActionArg} else {})
    ensures r.Ok? ==> forall k :: k in query && (k != ActionArg || verb !in actionMap) ==>
                        ListOrValue(query[k], env.decodeUtf8) == Ok(r.value.arguments[k])
    ensures verb !in actionMap ==>
              (r.Ok? <==> CollapseArguments(query, env.decodeUtf8).Ok?) &&
              (r.Ok? ==> r.value.payload == None && r.value.provider == None)
    ensures verb in actionMap && r.Ok? ==>
              && r.value.arguments[ActionArg] == ArgText(actionMap[verb])
              && r.value.payload.Some?
              && env.getIdentity(ArgsToJson(r.value.arguments)) == Ok(r.value.payload.value)
              && ProviderArg in r.value.arguments
              && r.value.provider.Some?
              && var p := r.value.payload.value;
                 env.makeProvider(ArgToJson(r.value.arguments[ProviderArg]), p.auth, p.credentials, p.settings)
                   == Ok(r.value.provider.value)
    ensures verb in actionMap && CollapseArguments(query, env.decodeUtf8).Ok? ==>
              var args := CollapseArguments(query, env.decodeUtf8).value[ActionArg := ArgText(actionMap[verb])];
              var id := env.getIdentity(ArgsToJson(args));
              && (id.Err? ==> r == Err(id.error))
              && (id.Ok? && ProviderArg !in query ==> r == Err(KeyError(ProviderArg)))
              && (id.Ok? && ProviderArg in query ==>
                    var made := env.makeProvider(ArgToJson(args[ProviderArg]), id.value.auth, id.value.credentials, id.value.settings);
                    && (r.Ok? <==> made.Ok?)
                    && (made.Err? ==> r == Err(made.error)))
  {
    var args :- CollapseArguments(query, env.decodeUtf8);
    if verb !in actionMap then
      Ok(Prepared(args, None, None))
    else
      var args' := args[ActionArg := ArgText(actionMap[verb])];
      var payload :- env.getIdentity(ArgsToJson(args'));
      if ProviderArg !in args' then
        Err(KeyError(ProviderArg))
      else
        var provider :- env.makeProvider(ArgToJson(args'[ProviderArg]), payload.auth, payload.credentials, payload.settings);
        Ok(Prepared(args', Some(payload), Some(provider)))
  }

  /** A verb outside the table never consults identity resolution nor the
      provider factory: the outcome is the same whatever they would do. */
  lemma SkippedPrepareIgnoresCollaborators(actionMap: map<string, string>, verb: string, query: map<string, seq<Bytes>>, env: Env, other: Env)
    requires verb !in actionMap
    requires other.decodeUtf8 == env.decodeUtf8
    ensures Prepare(actionMap, verb, query, env) == Prepare(actionMap, verb, query, other)
  {
  }

  /** `initialize` followed by `prepare`: the table is consulted with the
      overridden verb, and a request without a `method` argument is prepared
      with the verb it was sent with. */
  function Handle(actionMap: map<string, string>, transportVerb: string, query: map<string, seq<Bytes>>, env: Env): (r: Result<Prepared, Exception>)
    ensures OverrideMethod(transportVerb, query, env.decodeUtf8).Err? ==> r == Err(HttpError(400))
    ensures MethodParam !in query ==> r == Prepare(actionMap, transportVerb, query, env)
    ensures OverrideMethod(transportVerb, query, env.decodeUtf8).Ok? ==>
              r == Prepare(actionMap, OverrideMethod(transportVerb, query, env.decodeUtf8).value, query, env)
    ensures r.Ok? ==>
              var verb := OverrideMethod(transportVerb, query, env.decodeUtf8).value;
              && (verb in actionMap ==> ActionArg in r.value.arguments && r.value.arguments[ActionArg] == ArgText(actionMap[verb]))
              && (verb !in actionMap ==> r.value.payload.None? && r.value.provider.None?)
  {
    var verb :- OverrideMethod(transportVerb, query, env.decodeUtf8);
    Prepare(actionMap, verb, query, env)
  }

  /** `?method=delete` is dispatched through the table entry of `DELETE`,
      whatever verb the request was sent with. */
  lemma MethodOverrideSelectsAction(actionMap: map<string, string>, transportVerb: string, query: map<string, seq<Bytes>>, env: Env, raw: Bytes)
    requires MethodParam in query && query[MethodParam] == [raw]
    requires env.decodeUtf8(raw) == Some("delete")
    requires "DELETE" in actionMap
    ensures Handle(actionMap, transportVerb, query, env) == Prepare(actionMap, "DELETE", query, env)
  {
    assert query[MethodParam][1..] == [];
    var one: seq<Bytes> := [raw];
    assert one[0] == raw && one[1..] == [];
    assert DecodeAll(one[1..], env.decodeUtf8) == Some([]);
    var none: seq<string> := [];
    assert DecodeAll(one, env.decodeUtf8) == Some(["delete"] + none);
    assert ["delete"] + none == ["delete"];
    assert DecodeAll(query[MethodParam], env.decodeUtf8) == Some(["delete"]);
    assert ToUpper("delete") == "DELETE";
  }

  /** The retry budget `_send_hook` is wrapped in, and the lifetime added to
      the signed time stamp. */
  const HookRetries := 5
  const HookBackoff := 5
  const HookLifetime := 60

  /** The audit payload that gets signed. */
  function HookPayload(action: string, provider: ArgValue, metadata: Json, auth: Json, now: int): (j: Json)
    ensures j.JObject? && j.fields.Keys == {"action", "provider", "metadata", "auth", "time"}
    ensures j.fields["action"] == JString(action) && j.fields["provider"] == ArgToJson(provider)
    ensures j.fields["metadata"] == metadata && j.fields["auth"] == auth
    ensures j.fields["time"] == JInt(now + HookLifetime)
  {
    JObject(map[
      "action" := JString(action),
      "provider" := ArgToJson(provider),
      "metadata" := metadata,
      "auth" := auth,
      "time" := JInt(now + HookLifetime)])
  }

  /** The HTTP call `_send_hook` issues, with the retry policy it runs under. */
  datatype HookCall = HookCall(
    verb: string, url: string, body: Json, headers: seq<(string, string)>,
    retries: nat, backoff: nat)

  /** `_send_hook(action, metadata)` at wall-clock second `now`. */
  function SendHook(state: Prepared, action: string, metadata: Json, now: int, env: Env): (r: Result<HookCall, Exception>)
    ensures ProviderArg !in state.arguments ==> r == Err(KeyError(ProviderArg))
    ensures ProviderArg in state.arguments && state.payload.None? ==> r == Err(AttributeError("payload"))
    ensures ProviderArg in state.arguments && state.payload.Some? ==>
              var signed := env.signPayload(HookPayload(action, state.arguments[ProviderArg], metadata, state.payload.value.auth, now));
              && (r.Ok? <==> env.decodeUtf8(signed.message).Some?)
              && (r.Err? ==> r.error == UnicodeDecodeError)
    ensures r.Ok? ==>
              && ProviderArg in state.arguments && state.payload.Some?
              && var signed := env.signPayload(HookPayload(action, state.arguments[ProviderArg], metadata, state.payload.value.auth, now));
                 && env.decodeUtf8(signed.message).Some?
                 && r.value.body == JObject(map["payload" := JString(env.decodeUtf8(signed.message).value),
                                                "signature" := JString(signed.signature)])
    ensures r.Ok? ==> r.value.verb == "PUT" && r.value.url == state.payload.value.callbackUrl
    ensures r.Ok? ==> r.value.headers == [("Content-Type", "application/json")]
    ensures r.Ok? ==> r.value.retries == 5 && r.value.backoff == 5
  {
    if ProviderArg !in state.arguments then Err(KeyError(ProviderArg))
    else if state.payload.None? then Err(AttributeError("payload"))
    else
      var payload := HookPayload(action, state.arguments[ProviderArg], metadata, state.payload.value.auth, now);
      var signed := env.signPayload(payload);
      match env.decodeUtf8(signed.message)
      case None => Err(UnicodeDecodeError)
      case Some(text) =>
        Ok(HookCall("PUT", state.payload.value.callbackUrl,
                    JObject(map["payload" := JString(text), "signature" := JString(signed.signature)]),
                    [("Content-Type", "application/json")],
                    HookRetries, HookBackoff))
  }

  /** After a successful `prepare`, the hook goes to the callback URL that
      identity resolution returned, and the signed payload names the provider
      given in the query and the auth identity resolution returned. */
  lemma HookFollowsPrepare(actionMap: map<string, string>, verb: string, query: map<string, seq<Bytes>>, env: Env,
                           action: string, metadata: Json, now: int)
    requires verb in actionMap
    requires Prepare(actionMap, verb, query, env).Ok?
    ensures var st := Prepare(actionMap, verb, query, env).value;
            var h := SendHook(st, action, metadata, now, env);
            && ProviderArg in query
            && (h.Ok? <==> env.decodeUtf8(env.signPayload(HookPayload(action, st.arguments[ProviderArg], metadata, st.payload.value.auth, now)).message).Some?)
            && (h.Ok? ==> env.getIdentity(ArgsToJson(st.arguments)) == Ok(IdentityPayload(st.payload.value.auth, st.payload.value.credentials, st.payload.value.settings, h.value.url)))
            && Ok(st.arguments[ProviderArg]) == ListOrValue(query[ProviderArg], env.decodeUtf8)
  {
  }
}

=== FILE: statistics.dfy ===
/** The two dataset mungers of the project usage charts: the hour-of-day
    fill of the "visits by server time" chart and the page-title cleaner of
    the "popular pages" chart. A Keen dataset is a matrix whose row 0 is the
    header and whose other rows are (label, value) pairs. */
module Statistics {
  import opened Wrappers
  import opened Strings
  import opened Decimal

  /** A dataset cell as JavaScript sees it. */
  datatype Cell = Null | Num(n: int) | Text(s: string)

  /** JavaScript truthiness: `null`, `0` and `''` are falsy. */
  predicate Truthy(c: Cell) {
    match c
    case Null => false
    case Num(n) => n != 0
    case Text(s) => s != ""
  }

  function IntToString(i: int): string {
    if i >= 0 then NatToString(i) else "-" + NatToString(-i)
  }

  /** The property name a cell turns into when used as an object key. */
  function KeyOf(c: Cell): (k: string)
    ensures c.Text? ==> k == c.s
    ensures c.Num? && c.n >= 0 ==> ParseNat(k) == Some(c.n) && (|k| > 1 ==> k[0] != '0')
    ensures c.Num? && c.n < 0 ==> |k| > 1 && k[0] == '-' && ParseNat(k[1..]) == Some(-c.n) && (|k| > 2 ==> k[1] != '0')
  {
    match c
    case Null => "null"
    case Num(n) =>
      if n >= 0 then ParseNatToString(n); IntToString(n)
      else ParseNatToString(-n); IntToString(n)
    case Text(s) => s
  }

  datatype Row = Row(name: Cell, value: Cell)

  /** Row 0, when there is one. */
  function Header(matrix: seq<Row>): seq<Row> {
    if |matrix| == 0 then [] else matrix[..1]
  }

  /** Every row but row 0. */
  function DataRows(matrix: seq<Row>): seq<Row> {
    if |matrix| == 0 then [] else matrix[1..]
  }

  function Lookup(m: map<string, Cell>, key: string): Option<Cell> {
    if key in m then Some(m[key]) else None
  }

  /** Reference definition: the value of the first row whose label has
      the given key. */
  function FirstValue(rows: seq<Row>, key: string): (r: Option<Cell>)
    ensures r.Some? <==> exists j :: 0 <= j < |rows| && KeyOf(rows[j].name) == key
    ensures r.Some? ==>
              exists j :: 0 <= j < |rows| && KeyOf(rows[j].name) == key && r.value == rows[j].value
                          && forall i :: 0 <= i < j ==> KeyOf(rows[i].name) != key
    decreases |rows|
  {
    if |rows| == 0 then None
    else if KeyOf(rows[0].name) == key then Some(rows[0].value)
    else
      var r := FirstValue(rows[1..], key);
      assert forall j :: 1 <= j < |rows| ==> rows[1..][j - 1] == rows[j];
      r
  }

  /** The first loop of the hour munger: rows are read from the last one
      down to row 1, each overwriting the entry of its label, so with
      repeated labels the lowest row wins. */
  method CollectFoundHours(matrix: seq<Row>) returns (found: map<string, Cell>)
    ensures forall key :: Lookup(found, key) == FirstValue(DataRows(matrix), key)
  {
    found := map[];
    var i := |matrix| - 1;
    while i > 0
      invariant -1 <= i < |matrix|
      invariant |matrix| > 0 ==> i >= 0
      invariant forall key :: Lookup(found, key) == FirstValue(matrix[i + 1..], key)
      decreases i
    {
      var row := matrix[i];
      assert matrix[i..][0] == row && matrix[i..][1..] == matrix[i + 1..];
      var next := found[KeyOf(row.name) := row.value];
      forall key
        ensures Lookup(next, key) == FirstValue(matrix[i..], key)
      {
        if key != KeyOf(row.name) {
          assert Lookup(next, key) == Lookup(found, key);
        }
      }
      found := next;
      i := i - 1;
    }
  }

  /** `foundHours[h] || 0`. */
  function HourValue(v: Option<Cell>): (c: Cell)
    ensures Truthy(c) || c == Num(0)
    ensures v.Some? && Truthy(v.value) ==> c == v.value
    ensures !(v.Some? && Truthy(v.value)) ==> c == Num(0)
  {
    if v.Some? && Truthy(v.value) then v.value else Num(0)
  }

  /** The row the munger appends for `hour`. */
  function HourRow(data: seq<Row>, hour: nat): Row {
    Row(Text(NatToString(hour)), HourValue(FirstValue(data, NatToString(hour))))
  }

  /** The hour munger: keeps row 0, removes every other row, then appends
      one row per hour 0..23, labelled with the hour, whose value is the
      first value found for that label or 0 when none is truthy. */
  method MungeHours(matrix: seq<Row>) returns (result: seq<Row>)
    ensures |result| == |Header(matrix)| + 24
    ensures result[..|Header(matrix)|] == Header(matrix)
    ensures forall h :: 0 <= h < 24 ==> result[|Header(matrix)| + h] == HourRow(DataRows(matrix), h)
  {
    var found := CollectFoundHours(matrix);
    result := Header(matrix);
    var hour := 0;
    while hour < 24
      invariant 0 <= hour <= 24
      invariant |result| == |Header(matrix)| + hour
      invariant result[..|Header(matrix)|] == Header(matrix)
      invariant forall h :: 0 <= h < hour ==> result[|Header(matrix)| + h] == HourRow(DataRows(matrix), h)
    {
      var hourName := NatToString(hour);
      result := result + [Row(Text(hourName), HourValue(Lookup(found, hourName)))];
      hour := hour + 1;
    }
  }

  /** The appended labels are "0" to "23", each reading back as its hour, so
      they are distinct and ascending. */
  lemma HourLabelsAscending(data: seq<Row>, h: nat)
    requires h < 24
    ensures HourRow(data, h).name.Text?
    ensures ParseNat(HourRow(data, h).name.s) == Some(h)
  {
    ParseNatToString(h);
  }

  /** A row whose label is not the key does not change what is found for
      it; in particular rows labelled outside 0..23 never reach the chart. */
  lemma {:induction false} FirstValueSkipsOtherKeys(rows: seq<Row>, j: nat, key: string)
    requires j < |rows| && KeyOf(rows[j].name) != key
    ensures FirstValue(rows[..j] + rows[j + 1..], key) == FirstValue(rows, key)
    decreases |rows|
  {
    var rest := rows[..j] + rows[j + 1..];
    if j == 0 {
      assert rest == rows[1..];
      assert FirstValue(rows, key) == FirstValue(rows[1..], key);
    } else {
      assert rest[0] == rows[0];
      if KeyOf(rows[0].name) == key {
        assert FirstValue(rest, key) == Some(rows[0].value);
      } else {
        assert rest[1..] == rows[1..][..j - 1] + rows[1..][j..];
        FirstValueSkipsOtherKeys(rows[1..], j - 1, key);
        assert FirstValue(rest, key) == FirstValue(rest[1..], key);
      }
    }
  }

  /** With the label 5 given twice, as a number and as a string, the upper
      row's value is the one charted. */
  lemma DuplicateLabelExample()
    ensures HourRow([Row(Num(5), Num(3)), Row(Text("5"), Num(7))], 5).value == Num(3)
  {
    assert KeyOf(Num(5)) == NatToString(5);
  }

  const OsfPrefix := "OSF | "
  const HomeTitle := "Home"

  /** `value.replace(/^OSF \| /, '')`: one leading prefix is removed. */
  function StripOsfPrefix(value: string): (r: string)
    ensures StartsWith(value, OsfPrefix) ==> value == OsfPrefix + r
    ensures !StartsWith(value, OsfPrefix) ==> r == value
  {
    if StartsWith(value, OsfPrefix) then value[|OsfPrefix|..] else value
  }

  /** The title munger: the page title without the `OSF | ` prefix and
      without the project title and the character after it; 'Home' when
      nothing is left. */
  function MungeTitle(value: string, nodeTitle: string): (r: string)
    ensures r != ""
    ensures var t := StripOsfPrefix(value);
            && (!StartsWith(t, nodeTitle) ==> r == (if t == "" then HomeTitle else t))
            && (StartsWith(t, nodeTitle) && |t| <= |nodeTitle| + 1 ==> r == HomeTitle)
            && (StartsWith(t, nodeTitle) && |t| > |nodeTitle| + 1 ==>
                  t == nodeTitle + [t[|nodeTitle|]] + r)
  {
    var title := StripOsfPrefix(value);
    var rest :=
      if StartsWith(title, nodeTitle) then
        (if |nodeTitle| + 1 <= |title| then title[|nodeTitle| + 1..] else "")
      else title;
    if rest == "" then HomeTitle else rest
  }

  /** The project's own page, with or without the `OSF | ` prefix, is
      charted as 'Home'. */
  lemma ProjectPageIsHome(nodeTitle: string)
    ensures !StartsWith(nodeTitle, OsfPrefix) ==> MungeTitle(nodeTitle, nodeTitle) == HomeTitle
    ensures MungeTitle(OsfPrefix + nodeTitle, nodeTitle) == HomeTitle
  {
    assert StartsWith(OsfPrefix + nodeTitle, OsfPrefix);
    assert StripOsfPrefix(OsfPrefix + nodeTitle) == nodeTitle;
  }

  /** Only the first `OSF | ` is stripped. */
  lemma StripOsfPrefixOnce(rest: string)
    ensures StripOsfPrefix(OsfPrefix + OsfPrefix + rest) == OsfPrefix + rest
  {
    assert StartsWith(OsfPrefix + OsfPrefix + rest, OsfPrefix);
    assert (OsfPrefix + OsfPrefix + rest)[|OsfPrefix|..] == OsfPrefix + rest;
  }

  /** `updateColumn(0, munge)` over the data rows: every label is munged
      and every value kept; a label that is not a string makes the munger
      throw (None), and the chart shows the error instead. */
  function MungePageTitles(matrix: seq<Row>, nodeTitle: string): (r: Option<seq<Row>>)
    ensures r.Some? <==> forall i :: 0 <= i < |DataRows(matrix)| ==> DataRows(matrix)[i].name.Text?
    ensures r.Some? ==> |r.value| == |matrix| && r.value[..|Header(matrix)|] == Header(matrix)
    ensures r.Some? ==> forall i :: |Header(matrix)| <= i < |matrix| ==>
              matrix[i].name.Text? && r.value[i] == Row(Text(MungeTitle(matrix[i].name.s, nodeTitle)), matrix[i].value)
  {
    var data := DataRows(matrix);
    if forall i :: 0 <= i < |data| ==> data[i].name.Text? then
      Some(Header(matrix) + seq(|data|, i requires 0 <= i < |data| =>
                                  Row(Text(MungeTitle(data[i].name.s, nodeTitle)), data[i].value)))
    else None
  }
}

=== FILE: strings.dfy ===
/** String operations the handlers and scripts rely on, defined once. */
module Strings {

  /** `s.startswith(prefix)` / `s.startsWith(prefix)`. */
  predicate StartsWith(s: string, prefix: string) {
    |prefix| <= |s| && s[..|prefix|] == prefix
  }

  /** `s.endswith(suffix)`. */
  predicate EndsWith(s: string, suffix: string) {
    |suffix| <= |s| && s[|s| - |suffix|..] == suffix
  }

  predicate IsLowerAscii(c: char) {
    'a' <= c <= 'z'
  }

  function UpperChar(c: char): (u: char)
    ensures !IsLowerAscii(u)
    ensures IsLowerAscii(c) ==> u as int == c as int - 32
    ensures !IsLowerAscii(c) ==> u == c
  {
    if IsLowerAscii(c) then (c as int - 32) as char else c
  }

  /** `s.upper()` on the ASCII letters. */
  function ToUpper(s: string): (r: string)
    ensures |r| == |s|
    ensures forall i :: 0 <= i < |s| ==> r[i] == UpperChar(s[i])
  {
    seq(|s|, i requires 0 <= i < |s| => UpperChar(s[i]))
  }

  /** Upper-casing leaves no lower-case letter and is idempotent. */
  lemma ToUpperIdempotent(s: string)
    ensures forall i :: 0 <= i < |s| ==> !IsLowerAscii(ToUpper(s)[i])
    ensures ToUpper(ToUpper(s)) == ToUpper(s)
  {
  }

  /** `s.split(sep)` with a one-character separator: never empty, one more
      part than there are separators, empty parts kept. */
  function Split(s: string, sep: char): (parts: seq<string>)
    ensures |parts| >= 1
    ensures forall i :: 0 <= i < |parts| ==> sep !in parts[i]
    ensures |parts| == 1 <==> sep !in s
    decreases |s|
  {
    if |s| == 0 then [""]
    else if s[0] == sep then [""] + Split(s[1..], sep)
    else
      var rest := Split(s[1..], sep);
      [[s[0]] + rest[0]] + rest[1..]
  }

  /** There is one more part than there are separators. */
  lemma {:induction false} SplitCount(s: string, sep: char)
    ensures |Split(s, sep)| == multiset(s)[sep] + 1
    decreases |s|
  {
    if |s| > 0 {
      SplitCount(s[1..], sep);
      assert s == [s[0]] + s[1..];
      assert multiset(s) == multiset{s[0]} + multiset(s[1..]);
    }
  }

  /** `sep.join(parts)`. */
  function Join(parts: seq<string>, sep: char): string
    requires |parts| >= 1
    decreases |parts|
  {
    if |parts| == 1 then parts[0] else parts[0] + [sep] + Join(parts[1..], sep)
  }

  /** Joining a list of parts is joining all but the last, then the
      separator, then the last. */
  lemma {:induction false} JoinSnoc(parts: seq<string>, sep: char)
    requires |parts| >= 2
    ensures Join(parts, sep) == Join(parts[..|parts| - 1], sep) + [sep] + parts[|parts| - 1]
    decreases |parts|
  {
    var init := parts[..|parts| - 1];
    if |parts| > 2 {
      JoinSnoc(parts[1..], sep);
      assert parts[1..][..|parts[1..]| - 1] == init[1..];
      assert parts[1..][|parts[1..]| - 1] == parts[|parts| - 1];
    } else {
      assert init == [parts[0]];
      assert parts[1..] == [parts[1]];
    }
  }

  /** Joining the parts of a split gives back the original string. */
  lemma {:induction false} JoinSplit(s: string, sep: char)
    ensures Join(Split(s, sep), sep) == s
    decreases |s|
  {
    if |s| == 0 {
    } else if s[0] == sep {
      JoinSplit(s[1..], sep);
      assert Split(s, sep)[1..] == Split(s[1..], sep);
      assert s == [sep] + s[1..];
    } else {
      JoinSplit(s[1..], sep);
      var rest := Split(s[1..], sep);
      var parts := Split(s, sep);
      if |rest| == 1 {
        assert parts == [[s[0]] + rest[0]];
      } else {
        assert parts[1..] == rest[1..];
        assert Join(rest, sep) == rest[0] + [sep] + Join(rest[1..], sep);
      }
    }
  }

  /** A text ends in `/` exactly when its last character is `/`. */
  lemma EndsWithSlash(s: string)
    ensures EndsWith(s, "/") <==> |s| > 0 && s[|s| - 1] == '/'
  {
    if |s| > 0 && s[|s| - 1] == '/' {
      assert s[|s| - 1..] == "/";
    }
  }

  /** The tail of `os.path.split(p)` on POSIX: the text after the last `/`. */
  function PathTail(p: string): (t: string)
    ensures '/' !in t
    ensures EndsWith(p, t)
    ensures |t| < |p| ==> p[|p| - |t| - 1] == '/'
    decreases |p|
  {
    if |p| == 0 || p[|p| - 1] == '/' then ""
    else PathTail(p[..|p| - 1]) + [p[|p| - 1]]
  }

  /** The final segment of `dir + name`, when `dir` ends in `/` and `name`
      holds no `/`, is `name`. */
  lemma {:induction false} PathTailAfterSlash(dir: string, name: string)
    requires EndsWith(dir, "/") && '/' !in name
    ensures PathTail(dir + name) == name
    decreases |name|
  {
    if |name| == 0 {
      assert dir + name == dir;
    } else {
      var init := name[..|name| - 1];
      PathTailAfterSlash(dir, init);
      assert (dir + name)[..|dir + name| - 1] == dir + init;
      assert name == init + [name[|name| - 1]];
    }
  }
}

=== FILE: taxonomies.dfy ===
/** Loading the PLOS subject taxonomy: every `_`-separated path names a
    subject (its last segment) and its parent (the segment before), and each
    subject is created or updated in a store keyed by (text, type). */
module Taxonomies {
  import opened Wrappers
  import opened Strings

  /** The only taxonomy type loaded. */
  const PlosType := "plos"

  const Separator := '_'

  /** Subjects are looked up by text and type. */
  datatype SubjectKey = SubjectKey(text: string, subjectType: string)

  /** How a subject's parent was written: through the `parent_id` keyword
      when the subject is created, or through its `parent` field when an
      existing subject is updated. */
  datatype ParentLink = ParentIdKeyword(parentId: Option<SubjectKey>) | ParentField(parent: Option<SubjectKey>)

  datatype Subject = Subject(subjectType: string, text: string, parent: ParentLink)

  type Store = map<SubjectKey, Subject>

  /** The subject a path names: its last segment. */
  function TextOf(path: string): (t: string)
    ensures Separator !in t
    ensures EndsWith(path, t)
    ensures |t| < |path| ==> path[|path| - |t| - 1] == Separator
  {
    var segments := Split(path, Separator);
    JoinSplit(path, Separator);
    LastPartIsSuffix(segments);
    segments[|segments| - 1]
  }

  /** The last part of a list of parts is a suffix of their join. */
  lemma {:induction false} LastPartIsSuffix(parts: seq<string>)
    requires |parts| >= 1
    ensures var whole, last := Join(parts, Separator), parts[|parts| - 1];
            && EndsWith(whole, last)
            && (|parts| == 1 ==> whole == last)
            && (|parts| > 1 ==> |last| < |whole| && whole[|whole| - |last| - 1] == Separator)
    decreases |parts|
  {
    if |parts| > 1 {
      LastPartIsSuffix(parts[1..]);
      var rest := Join(parts[1..], Separator);
      var whole := Join(parts, Separator);
      var last := parts[|parts| - 1];
      assert last == parts[1..][|parts[1..]| - 1];
      assert whole == parts[0] + [Separator] + rest;
      assert whole[|whole| - |rest|..] == rest;
      if |parts[1..]| == 1 {
        assert rest == last;
      }
      assert whole[|whole| - |last| - 1] == Separator;
    }
  }

  /** The text of the parent a path names: the second-to-last segment of a
      path with more than one. */
  function ParentText(path: string): (r: Option<string>)
    ensures r.Some? <==> Separator in path
    ensures r.Some? ==> Separator !in r.value
    ensures r.Some? ==> EndsWith(path, r.value + [Separator] + TextOf(path))
    ensures r.Some? ==> var n := |r.value| + 1 + |TextOf(path)|;
                        n == |path| || path[|path| - n - 1] == Separator
  {
    var segments := Split(path, Separator);
    if |segments| > 1 then
      JoinSplit(path, Separator);
      LastTwoParts(segments);
      Some(segments[|segments| - 2])
    else None
  }

  /** The join of two or more parts ends with the second-to-last part, the
      separator and the last part, with a separator or nothing before. */
  lemma LastTwoParts(parts: seq<string>)
    requires |parts| >= 2
    ensures var whole, p, l := Join(parts, Separator), parts[|parts| - 2], parts[|parts| - 1];
            var n := |p| + 1 + |l|;
            && EndsWith(whole, p + [Separator] + l)
            && (n == |whole| || whole[|whole| - n - 1] == Separator)
  {
    var init := parts[..|parts| - 1];
    var p, l := parts[|parts| - 2], parts[|parts| - 1];
    JoinSnoc(parts, Separator);
    LastPartIsSuffix(init);
    assert init[|init| - 1] == p;
    var j := Join(init, Separator);
    var whole := j + [Separator] + l;
    assert Join(parts, Separator) == whole;
    assert whole[|j| - |p|..] == j[|j| - |p|..] + [Separator] + l;
    if |init| > 1 {
      assert whole[|j| - |p| - 1] == j[|j| - |p| - 1];
    }
  }

  function KeyFor(path: string): SubjectKey {
    SubjectKey(TextOf(path), PlosType)
  }

  /** The parent lookup: the stored PLOS subject with the parent's text;
      any failure to find it gives None. */
  function FindParent(store: Store, path: string): (r: Option<SubjectKey>)
    ensures ParentText(path).None? ==> r.None?
    ensures ParentText(path).Some? ==>
              (r.Some? <==> SubjectKey(ParentText(path).value, PlosType) in store)
    ensures r.Some? ==> r.value in store && r.value == SubjectKey(ParentText(path).value, PlosType)
  {
    match ParentText(path)
    case None => None
    case Some(t) => if SubjectKey(t, PlosType) in store then Some(SubjectKey(t, PlosType)) else None
  }

  /** One iteration of the loading loop: the subject keyed by the path's
      text and 'plos' is updated in place (its parent overwritten, even with
      None) or, when absent, created with the parent passed as `parent_id`;
      no other subject changes. */
  function Upsert(store: Store, path: string): (r: Store)
    ensures r.Keys == store.Keys + {KeyFor(path)}
    ensures forall k :: k in store && k != KeyFor(path) ==> r[k] == store[k]
    ensures r[KeyFor(path)].subjectType == PlosType && r[KeyFor(path)].text == TextOf(path)
    ensures KeyFor(path) in store ==> r[KeyFor(path)].parent == ParentField(FindParent(store, path))
    ensures KeyFor(path) !in store ==> r[KeyFor(path)].parent == ParentIdKeyword(FindParent(store, path))
  {
    var key := KeyFor(path);
    var parent := FindParent(store, path);
    var link := if key in store then ParentField(parent) else ParentIdKeyword(parent);
    store[key := Subject(PlosType, TextOf(path), link)]
  }

  /** The keys a list of paths writes, one per path. */
  function Written(paths: seq<string>): set<SubjectKey>
    decreases |paths|
  {
    if |paths| == 0 then {}
    else Written(paths[..|paths| - 1]) + {KeyFor(paths[|paths| - 1])}
  }

  /** A key is written exactly when some path names it. */
  lemma {:induction false} WrittenMembers(paths: seq<string>, k: SubjectKey)
    ensures k in Written(paths) <==> exists j :: 0 <= j < |paths| && KeyFor(paths[j]) == k
    decreases |paths|
  {
    if |paths| > 0 {
      var init := paths[..|paths| - 1];
      WrittenMembers(init, k);
      assert forall j :: 0 <= j < |init| ==> init[j] == paths[j];
      if exists j :: 0 <= j < |paths| && KeyFor(paths[j]) == k {
        var j :| 0 <= j < |paths| && KeyFor(paths[j]) == k;
        if j < |init| {
          assert KeyFor(init[j]) == k;
        }
      }
    }
  }

  /** An upsert leaves every other stored subject as it was. */
  lemma UpsertKeepsOthers(store: Store, path: string, key: SubjectKey)
    requires key in store && key != KeyFor(path)
    ensures key in Upsert(store, path) && Upsert(store, path)[key] == store[key]
  {
  }

  /** `ensure_taxonomies` over the paths of the taxonomy file, in order.
      Afterwards the store holds exactly the old subjects and one PLOS
      subject per distinct text, with that text; subjects no path names
      are untouched. */
  function EnsureTaxonomies(store: Store, paths: seq<string>): (r: Store)
    ensures r.Keys == store.Keys + Written(paths)
    ensures forall k :: k in store && k !in Written(paths) ==> r[k] == store[k]
    ensures forall k :: k in Written(paths) ==> k.subjectType == PlosType && r[k].subjectType == PlosType && r[k].text == k.text
    decreases |paths|
  {
    if |paths| == 0 then store
    else
      var init := paths[..|paths| - 1];
      var last := paths[|paths| - 1];
      Upsert(EnsureTaxonomies(store, init), last)
  }

  /** The store the `i`-th path is processed against. */
  function StoreBefore(store: Store, paths: seq<string>, i: nat): Store
    requires i <= |paths|
  {
    EnsureTaxonomies(store, paths[..i])
  }

  /** A parent is found only when it was in the store already or an earlier
      path created it: one listed later in the file is not found. */
  lemma ParentFoundOnlyIfEarlier(store: Store, paths: seq<string>, i: nat)
    requires i < |paths| && ParentText(paths[i]).Some?
    ensures var parent := SubjectKey(ParentText(paths[i]).value, PlosType);
            FindParent(StoreBefore(store, paths, i), paths[i]).Some? <==>
              parent in store || exists j :: 0 <= j < i && KeyFor(paths[j]) == parent
  {
    var parent := SubjectKey(ParentText(paths[i]).value, PlosType);
    var prefix := paths[..i];
    assert forall j :: 0 <= j < i ==> prefix[j] == paths[j];
    WrittenMembers(prefix, parent);
    if exists j :: 0 <= j < i && KeyFor(paths[j]) == parent {
      var j :| 0 <= j < i && KeyFor(paths[j]) == parent;
      assert KeyFor(prefix[j]) == parent;
    }
  }

  /** Processing the paths one more path at a time. */
  lemma StoreAfterStep(store: Store, paths: seq<string>, i: nat)
    requires i < |paths|
    ensures StoreBefore(store, paths, i + 1) == Upsert(StoreBefore(store, paths, i), paths[i])
  {
    assert paths[..i + 1][..i] == paths[..i];
  }

  /** The fold, one path at a time: the last path is upserted into the
      store the others produce. */
  lemma EnsureTaxonomiesSnoc(store: Store, paths: seq<string>)
    requires |paths| > 0
    ensures EnsureTaxonomies(store, paths) ==
              Upsert(EnsureTaxonomies(store, paths[..|paths| - 1]), paths[|paths| - 1])
  {
  }

  /** Paths that never name a key leave its subject as it was. */
  lemma {:induction false} UnnamedSubjectKept(store: Store, done: seq<string>, rest: seq<string>, key: SubjectKey)
    requires key in EnsureTaxonomies(store, done)
    requires key !in Written(rest)
    ensures key in EnsureTaxonomies(store, done + rest)
    ensures EnsureTaxonomies(store, done + rest)[key] == EnsureTaxonomies(store, done)[key]
    decreases |rest|
  {
    if |rest| == 0 {
      assert done + rest == done;
    } else {
      var all := done + rest;
      var init, last := rest[..|rest| - 1], rest[|rest| - 1];
      assert all[..|all| - 1] == done + init;
      assert all[|all| - 1] == last;
      assert key !in Written(init) && KeyFor(last) != key;
      UnnamedSubjectKept(store, done, init, key);
      var mid := EnsureTaxonomies(store, done + init);
      EnsureTaxonomiesSnoc(store, all);
      assert EnsureTaxonomies(store, all) == Upsert(mid, last);
      UpsertKeepsOthers(mid, last, key);
    }
  }

  /** The last path naming a subject decides its parent: the lookup made
      for that path, written as a field update when the subject already
      existed and as `parent_id` when that path created it. */
  lemma LastWriteWins(store: Store, paths: seq<string>, i: nat)
    requires i < |paths|
    requires forall j :: i < j < |paths| ==> KeyFor(paths[j]) != KeyFor(paths[i])
    ensures var before := StoreBefore(store, paths, i);
            var parent := FindParent(before, paths[i]);
            var after := EnsureTaxonomies(store, paths);
            && KeyFor(paths[i]) in after
            && after[KeyFor(paths[i])] ==
              Subject(PlosType, TextOf(paths[i]),
                      if KeyFor(paths[i]) in before then ParentField(parent) else ParentIdKeyword(parent))
  {
    var key := KeyFor(paths[i]);
    var done, rest := paths[..i + 1], paths[i + 1..];
    assert paths == done + rest;
    assert forall j :: 0 <= j < |rest| ==> rest[j] == paths[i + 1 + j];
    WrittenMembers(rest, key);
    StoreAfterStep(store, paths, i);
    UnnamedSubjectKept(store, done, rest, key);
  }
}

=== FILE: wrappers.dfy ===
/** Failure-compatible wrappers shared by every module of the model. */
module Wrappers {

  /** Python's `None` / a present value. */
  datatype Option<+T> = None | Some(value: T)

  /** The outcome of a step that can raise: a value, or the exception raised. */
  datatype Result<+T, +E> = Ok(value: T) | Err(error: E) {

    predicate IsFailure() {
      Err?
    }

    function PropagateFailure<U>(): Result<U, E>
      requires Err?
    {
      Err(error)
    }

    function Extract(): T
      requires Ok?
    {
      value
    }
  }
}
